=== FILE: README.md ===
# ipx request resolution, in Dafny

This project models how the ipx image proxy resolves a request, with its
I/O and library calls taken out. Given a resource id and a set of
modifiers, the proxy:

1. rejects an empty id;
2. gives a path id a leading slash;
3. rewrites the id through the configured aliases;
4. chooses the filesystem or the HTTP storage backend;
5. validates remote ids against the HTTP backend's domain policy;
6. negotiates the output format, or bypasses the raster engine for SVG;
7. resolves the modifiers to an ordered list of transformation handlers;
8. derives the encode options;
9. serves or refreshes the result through a persistent cache with a
   time-to-live.

Modules, one file each:

- `Base` (`base.dfy`): `Option`, `Result` and the proxy's error kinds.
- `Strings` (`strings.dfy`): prefix tests, `withLeadingSlash`, protocol
  detection, `split`/`join`, JavaScript `trim`, code-point order and decimal
  text.
- `Wildcard` (`wildcard.dfy`): the wildcard host patterns of the HTTP
  backend, with a matcher and a reference reading shown equivalent.
- `HttpStorage` (`http_storage.dfy`): the domain list, the exact and
  wildcard hosts, `validateId`, `max-age` selection, and `getMeta`/`getData`.
- `Aliases` (`aliases.dfy`): alias-key normalisation and the rewrite walk.
- `Handlers` (`handlers.dfy`): modifier-to-handler resolution and the sort.
- `Ipx` (`ipx.dfy`): options, id resolution, storage selection, source
  metadata and data, format negotiation, the SVG bypass, encode options and
  the processing plan.
- `PersistentCache` (`cache.dfy`): the cache step as a transition over a
  `map` with explicit clock readings.

These pieces are external and enter the model as parameters:

- ufo's `joinURL`;
- the `URL` constructor and `decodeURIComponent`;
- the HEAD and GET requests;
- image-meta parsing;
- the handler table;
- the quality the handlers leave in their shared context;
- the outcome of `process` as seen by the cache.

The clock also enters as parameters: the two `Date.now()` readings of the
cache step.

Behaviours of the code a reader might not expect:

- The alias walk does not stop at the first matching key. Every key that
  prefixes the id as rewritten so far rewrites it again (`ExampleChainedAliases`).
- A cache entry is served while `time + ttl >= now`. An entry exactly `ttl`
  old is therefore still served (`PersistentCache.FreshnessWindow`).
- `validateId` raises `MissingHostname` only for a URL that parses and has an
  empty hostname. An id the URL constructor rejects raises that constructor's
  own error (`InvalidUrl` here). A failing `decodeURIComponent` raises its own
  error too (`MalformedUri`).
- The HTTP backend reads `cache-control` only when `ignoreCacheControl` is
  set. That polarity is kept as written.
- The default time-to-live `7*60*60*24` is compared with millisecond clock
  readings. The model keeps it as the number 604800 and does not give it a
  unit.

## Model

| member | source | states |
|---|---|---|
| `Strings.WithLeadingSlash` | src/ipx.ts:95 | the result starts with "/"; it equals the input exactly when the input already starts with "/", otherwise it is "/" followed by the input |
| `Strings.HasProtocolIff` | src/ipx.ts:104 | protocol detection holds iff a non-empty run of lower-case letters at the start is followed by "://" |
| `Strings.LeadingSlashHasNoProtocol` | src/ipx.ts:95 | an id that starts with "/" never counts as carrying a protocol |
| `Strings.Split` | src/storage/http.ts:27 | the pieces contain no separator and joining them with the separator gives the input back |
| `Strings.SplitJoin` | src/storage/http.ts:27 | splitting a join of separator-free pieces returns those pieces (the other half of the round trip) |
| `Strings.SplitLength` | src/storage/http.ts:27 | a comma-joined list yields one entry more than it has commas |
| `Strings.Trim` | src/storage/http.ts:27 | the result is an infix of the input; everything cut off is JavaScript whitespace; the result neither starts nor ends with whitespace |
| `Strings.LexLeTotal` | src/ipx.ts:216-220 | any two sort keys are comparable |
| `Strings.LexLeTransitive` | src/ipx.ts:216-220 | the key order is transitive |
| `Strings.LexLeAntisymmetric` | src/ipx.ts:216-220 | keys ordered both ways are equal |
| `Strings.DecimalRoundTrip` | src/ipx.ts:217-218 | reading back the decimal text of a number gives that number |
| `Wildcard.MatchWitness` | src/storage/http.ts:31-33 | when a host matches a pattern, some line-terminator-free texts put in place of the `*`s spell the host |
| `Wildcard.ExpandMatches` | src/storage/http.ts:31-33 | every line-terminator-free filling of the `*`s is matched by the pattern |
| `Wildcard.MatchesIffDenotes` | src/storage/http.ts:31-33 | the anchored matcher accepts exactly the hosts that the pattern denotes with `*` as any run of characters other than line terminators and every other character literal |
| `Wildcard.LiteralMatches` | src/storage/http.ts:31-33 | a pattern without `*` matches only the identical host; `.` is literal |
| `Wildcard.SuffixMatches` | src/storage/http.ts:31-33 | `*` plus a star-free suffix matches exactly the hosts that end with that suffix |
| `HttpStorage.DomainEntries` | src/storage/http.ts:21-28 | an absent setting or an empty text gives no entries (not the single empty piece `"".split(",")` would give); a list is used as is; a text gives one trimmed entry per comma-separated piece, and no entry contains a comma |
| `HttpStorage.WithHttpScheme` | src/storage/http.ts:38-40 | the result always has an `http(s)://` scheme; an entry with one is kept, and an entry without one gets `http://` in front |
| `HttpStorage.ExactHosts` | src/storage/http.ts:35-44 | the set holds exactly the non-empty hostnames of the entries; building it fails iff some entry is not a URL |
| `HttpStorage.WildcardEntries` | src/storage/http.ts:45 | the wildcard patterns are exactly the entries starting with `*` |
| `HttpStorage.BuildPolicy` | src/storage/http.ts:19-45 | building fails with the URL constructor's error iff some entry with its scheme added is not a URL; failing that, it fails with the RegExp constructor's error iff some `*`-entry does not compile; otherwise the policy carries the allow-all flag, the `*`-entries (all compiling) as patterns and the non-empty hostnames of the entries as exact hosts |
| `HttpStorage.ValidateId` | src/storage/http.ts:48-66 | it accepts iff the id decodes and parses to a URL with a non-empty hostname that the policy allows, and returns the serialised URL; `MissingHostname` is raised iff the hostname is empty; `ForbiddenHost` iff it is non-empty and not allowed; an id `decodeURIComponent` rejects gives `MalformedUri`, and a decoded id the URL constructor rejects gives `InvalidUrl` |
| `HttpStorage.ValidateIdIffPolicy` | src/storage/http.ts:49-64 | acceptance holds iff the hostname is non-empty and is a filled-in wildcard entry, or all domains are allowed, or it is an exact host; the hostname check comes first |
| `HttpStorage.DefaultMaxAge` | src/storage/http.ts:23-24 | the default age is the configured `maxAge` when it is set and non-zero, and absent otherwise |
| `HttpStorage.FirstMaxAge` | src/storage/http.ts:74 | it finds the leftmost `max-age=` followed by a digit, and none when there is none |
| `HttpStorage.CacheControlMaxAge` | src/storage/http.ts:72-77 | a number is read iff the header contains `max-age=` followed by a digit, and it is the decimal value of the whole digit run after the leftmost such `max-age=` |
| `HttpStorage.ParseResponse` | src/storage/http.ts:69-88 | without `ignoreCacheControl` the age is the configured default whatever the header says; with it, a `max-age=<digits>` value replaces the default; `mtime` is the `last-modified` header when present |
| `HttpStorage.GetMeta` | src/storage/http.ts:92-104 | validation errors propagate; once validated, a successful probe gives the metadata `parseResponse` reads from its headers, and a failed probe gives empty metadata instead of an error |
| `HttpStorage.GetData` | src/storage/http.ts:105-114 | validation errors propagate; for a validated id the answer is exactly the body fetched from the validated URL, or `FetchFailed` when the GET rejects |
| `HttpStorage.ValidateBeforeFetch` | src/storage/http.ts:92-113 | for an id that fails validation, neither answer depends on what the requests would return |
| `HttpStorage.ExampleWildcardAccepts` | src/storage/http.ts:45-65 | with `domains: ["*.example.com"]`, a URL with host `img.example.com` is accepted |
| `HttpStorage.ExampleWildcardRefuses` | src/storage/http.ts:57-64 | with the same domains, host `evil.com` is refused with `ForbiddenHost` |
| `HttpStorage.ExampleSuffixMatch` | src/storage/http.ts:31-33 | `*.example.com` matches `img.example.com` |
| `Aliases.Lookup` | src/ipx.ts:100 | a key has a target iff some entry carries that key |
| `Aliases.Put` | src/ipx.ts:65-70 | assigning a key keeps keys distinct, sets that key's target and changes no other key; an existing key keeps its position and a new key is appended |
| `Aliases.NormalizeAliases` | src/ipx.ts:64-70 | the keys are distinct and all start with "/"; they are exactly the normalised keys of the configuration; each carries the target of the last entry that normalises to it; the keys are in the order in which the entries first create them |
| `Aliases.NormalizeDistinct` | src/ipx.ts:64-70 | when no two entries normalise to the same key, the table is the entries with normalised keys, one for one and in configuration order |
| `Aliases.NormalizeStep` | src/ipx.ts:65-70 | adding one entry to a normalised table keeps it the normalisation of the longer configuration |
| `Aliases.ApplyAliases` | src/ipx.ts:98-102 | an id that no key prefixes is left unchanged |
| `Aliases.ResolveAliases` | src/ipx.ts:98-102 | the loop computes the composition of every alias's rewrite in configuration order, and leaves an id no key prefixes unchanged |
| `Aliases.ExampleSingleAlias` | src/ipx.ts:98-102 | with `/a -> /b`, the id `/a/x.png` becomes `/b/x.png` |
| `Aliases.ExampleChainedAliases` | src/ipx.ts:98-102 | with `/a -> /b` then `/b -> /c`, the id `/a/x` becomes `/c/x`: the walk does not stop at the first match |
| `Handlers.SortKey` | src/ipx.ts:217-218 | a handler's non-zero `order` gives its decimal text without leading zeros (with "-" for a negative one), which reads back to that number; a zero or absent `order` gives the modifier name |
| `Handlers.ExampleTextualOrder` | src/ipx.ts:216-220 | keys are compared as text: a handler with `order` 10 sorts strictly before one with `order` 9 |
| `Handlers.Resolvable` | src/ipx.ts:209-215 | a step is kept iff its modifier is present and its name has a handler, and it carries that handler |
| `Handlers.ResolvableCount` | src/ipx.ts:209-215 | each kept step occurs as often as its modifier does, and unknown names contribute nothing |
| `Handlers.Insert` | src/ipx.ts:216-220 | inserting into a sorted list keeps it sorted and adds exactly that step |
| `Handlers.SortSteps` | src/ipx.ts:216-220 | the output is sorted by key and is a permutation of the input |
| `Handlers.ResolveHandlers` | src/ipx.ts:209-220 | the handler list is sorted by `order`-or-name key, is a permutation of the kept modifiers, and holds exactly the modifiers whose name has a handler |
| `Handlers.SortedUnique` | src/ipx.ts:216-220 | two sorted arrangements of the same steps with distinct keys are identical |
| `Handlers.ResolvablePermutation` | src/ipx.ts:209-215 | rearranging the modifiers only rearranges the kept steps |
| `Handlers.OrderIndependent` | src/ipx.ts:209-220 | when the kept steps have distinct keys, the handler order does not depend on the order the modifiers were given in |
| `Ipx.CreateOptions` | src/ipx.ts:57-70 | `maxAge` defaults to 60; alias keys are normalised to start with "/" (last value wins per key, keys in configuration order); everything else is passed through |
| `Ipx.SelectStorage` | src/ipx.ts:104-113 | the chosen backend is always a configured one; a remote id gets the HTTP backend when set and a local id the primary one when set; `NoStorageConfigured` iff neither is set |
| `Ipx.SingleBackendServesAll` | src/ipx.ts:104-106 | with one backend configured, every id goes to it |
| `Ipx.NormalizeId` | src/ipx.ts:95 | an id with a protocol is kept; any other id is kept when it already starts with "/" and otherwise gets one, and then carries no protocol |
| `Ipx.Resolve` | src/ipx.ts:84-113 | an empty id fails with `MissingId` whatever the configuration; otherwise the id is normalised and then rewritten through the aliases, and the backend is chosen by whether the rewritten id has a protocol |
| `Ipx.ConfiguredAliasOrder` | src/ipx.ts:64-102 | configured as `/a -> /b` then `/b -> /c`, the id `/a/x` is served as `/c/x` from the primary backend: the configured order survives `createIPX` and drives the walk |
| `Ipx.UnaliasedIdKept` | src/ipx.ts:95-102 | an id that no alias key prefixes reaches storage selection as normalised |
| `Ipx.GetSourceMeta` | src/ipx.ts:116-131 | a backend rejection propagates; no metadata is `ResourceNotFound`; an absent `maxAge` falls back to the configured one |
| `Ipx.GetSourceData` | src/ipx.ts:132-142 | data is returned iff the backend produced some; otherwise the rejection or `ResourceNotFound` surfaces |
| `Ipx.HttpProbeFailureUsesDefault` | src/storage/http.ts:92-104 | through the HTTP backend, a failed probe yields source metadata with the configured `maxAge`, while a validation failure surfaces as an error |
| `Ipx.Get` | src/ipx.ts:160 | a modifier has a value iff some entry has that name, and the value belongs to such an entry |
| `Ipx.RequestedFormat` | src/ipx.ts:160-163 | `f` is read before `format`, an empty value counts as absent, and "jpg" becomes "jpeg" |
| `Ipx.FirstSupported` | src/ipx.ts:164-169 | the result is the first candidate that is a supported format, or "jpeg" when no candidate is |
| `Ipx.OutputFormat` | src/ipx.ts:164-169 | the negotiated format is always supported and is the first supported among the requested format and the source type, else "jpeg" |
| `Ipx.Quality` | src/ipx.ts:230 | an unset or zero context quality falls back to 65, so the quality is never zero |
| `Ipx.Encode` | src/ipx.ts:228-233 | the encoder gets the negotiated format, the context quality or 65, and progressive output exactly for jpeg |
| `Ipx.SvgPlugins` | src/ipx.ts:184 | the optimiser's plugin list is `removeScriptElement` followed by the configured plugins |
| `Ipx.Process` | src/ipx.ts:144-240 | a data error propagates; unparseable metadata is `InvalidImage`; parseable metadata always gives a result carrying it; an SVG source without requested format bypasses the raster engine, as `svg+xml`; otherwise the format is supported, animation follows `animated`/`a`/gif, and the handler list and encode options are as resolved |
| `Ipx.SvgBypass` | src/ipx.ts:172-191 | an SVG source without `f`/`format` is returned unchanged when the optimiser is off and optimised with `removeScriptElement` first otherwise, never rasterised |
| `Ipx.JpegSourceStaysJpeg` | src/ipx.ts:164-169 | a JPEG source without format modifier, reported as "jpeg" or as "jpg", is encoded as progressive jpeg |
| `Ipx.ExplicitFormatWins` | src/ipx.ts:164-169 | `format=webp` gives webp whatever the source type, SVG included |
| `Ipx.ShortFormatFirst` | src/ipx.ts:160-163 | `f=jpg` is requested as jpeg |
| `PersistentCache.Ttl` | src/ipx.ts:252 | an absent or zero `storageMaxAge` falls back to 604800 |
| `PersistentCache.Get` | src/ipx.ts:249-273 | a fresh entry is returned without running `process`; otherwise the key is removed and `process` runs; its result is stored stamped with the write time, or its error propagates with the key left removed; no other key changes |
| `PersistentCache.FreshnessWindow` | src/ipx.ts:253 | an entry is served iff its age is at most the time-to-live |
| `PersistentCache.StoredResultServed` | src/ipx.ts:253-271 | after a stored result, a read inside the window returns the same result without recomputation or change to the cache |
| `PersistentCache.FailureNotCached` | src/ipx.ts:260-262 | a failed `process` leaves nothing behind, so the next read computes again |

## Left out

- `HttpStorage.ValidateId`: a wildcard entry treats only `*` as special. The source builds a regular expression from the raw entry and escapes only `.`, so other regular-expression characters in an entry (`+ ? ( ) [ ] { } ^ $ | \`) would keep their regex meaning; the model reads them literally. WHATWG hostnames can contain some of them (`+`, `(`, `)`, `{`, `}`, `$`), so for such entries the source's matcher and the model's differ.
- `HttpStorage.BuildPolicy`: which `*`-entries compile as regular expressions is a parameter. The grammar of JavaScript regular expressions, which decides when the RegExp constructor throws (for `*+` or `*.a(b.com`, say), is not modelled.
- `Handlers.ResolveHandlers`: keys are compared by code point. The source uses `localeCompare`, whose locale-dependent collation is not modelled.
- `Handlers.OrderIndependent`: stated only for steps with distinct keys. Handlers that share an `order` tie, and the stable sort then keeps them in input order.
- `Strings.HasProtocolIff`: protocol detection is taken as `^[a-z]+://`. ufo's `hasProtocol` is not part of this model and accepts a broader set of schemes.
- `HttpStorage.CacheControlMaxAge`: the digits are read as an exact integer. `Number.parseInt` loses precision beyond 2^53.
- `Ipx.Process`: the pixel work is not modelled; `sharp`, its options and what each handler does to the image belong to external libraries. The model gives the plan: animated flag, ordered steps and encode options. Handler effects on the shared context are reduced to the resulting quality. The computed `animated` flag is recorded as is; a configured `sharpOptions.animated` would override it when the engine is opened, and `sharpOptions` are not modelled.
- Failures of the image engine while encoding are not modelled: the plan is handed over and its outcome lies outside the model.
- The `svgo` optimiser's own output and its other options are not modelled; the model records the plugin list it would receive.
- `cachedPromise` is not part of this model. Its per-handle single-flight memoisation concerns asynchronous concurrency.
- The fingerprint `murmurHash(id) + hash(modifiers)` is taken as a given string key. Its insensitivity to modifier order is a property of the hashing library.
- Disk I/O of the cache is not modelled, and neither are `got` requests or logging. A failed cache read counts as a miss. A failed cache write is not modelled.
- The environment fallbacks (`getEnv`) and `defu` merging are not modelled. Options arrive already settled, and an absent environment value counts as unset.
- Modifier values are always strings. A key explicitly set to `undefined` is not represented.
- Alias entries arrive in JavaScript property-enumeration order. Integer-like keys would come first in that order.
- `Date` parsing of `last-modified` and of `mtime` is not modelled. They stay raw header text.
- The `process` wrapper's fallback to a direct `process()` call is not modelled. The cache step always resolves to a value, so that fallback never runs.
- The server layer and the bootstrap files are not modelled.

=== FILE: aliases.dfy ===
/** Alias rewriting (src/ipx.ts): `createIPX` normalises every alias key
    to start with "/", and each request walks the aliases in
    configuration order, letting every key that prefixes the current id
    rewrite it. ufo's `joinURL` is a parameter. */
module Aliases {
  import opened Base
  import opened Strings

  /** One alias: ids starting with `base` are redirected under `target`. */
  datatype Alias = Alias(base: string, target: string)

  /** Keys of a table are pairwise distinct, as the keys of an object are. */
  predicate DistinctBases(table: seq<Alias>) {
    forall i, j :: 0 <= i < j < |table| ==> table[i].base != table[j].base
  }

  /** The target stored under `base`, if any. */
  function Lookup(table: seq<Alias>, base: string): (r: Option<string>)
    ensures r.Some? <==> exists i :: 0 <= i < |table| && table[i].base == base
  {
    if |table| == 0 then None
    else if table[0].base == base then Some(table[0].target)
    else
      var r := Lookup(table[1..], base);
      assert forall i :: 1 <= i < |table| ==> table[i] == table[1..][i - 1];
      r
  }

  /** Index of the entry whose key is `base`, or `|table|`. */
  function IndexOfBase(table: seq<Alias>, base: string): (i: nat)
    ensures i <= |table|
    ensures i < |table| ==> table[i].base == base
    ensures forall k :: 0 <= k < i ==> table[k].base != base
  {
    if |table| == 0 then 0
    else if table[0].base == base then 0
    else 1 + IndexOfBase(table[1..], base)
  }

  /** Assigning one property of an object: an existing key keeps its
      position and takes the new value; a new key is appended. */
  function Put(table: seq<Alias>, base: string, target: string): (r: seq<Alias>)
    requires DistinctBases(table)
    ensures DistinctBases(r)
    ensures Lookup(r, base) == Some(target)
    ensures forall b :: b != base ==> Lookup(r, b) == Lookup(table, b)
    ensures (exists i :: 0 <= i < |table| && table[i].base == base) ==>
      && |r| == |table|
      && forall k :: 0 <= k < |r| ==> r[k] == (if table[k].base == base then Alias(base, target) else table[k])
    ensures (forall i :: 0 <= i < |table| ==> table[i].base != base) ==> r == table + [Alias(base, target)]
  {
    var i := IndexOfBase(table, base);
    if i < |table| then
      var r := table[i := Alias(base, target)];
      assert forall k :: 0 <= k < |table| && k != i ==> table[k].base != base;
      LookupDistinct(r, i);
      forall b | b != base
        ensures Lookup(r, b) == Lookup(table, b)
      {
        LookupAgree(table, r, b);
      }
      r
    else
      var r := table + [Alias(base, target)];
      LookupDistinct(r, |table|);
      forall b | b != base
        ensures Lookup(r, b) == Lookup(table, b)
      {
        LookupAgree(table, r, b);
      }
      r
  }

  lemma {:induction false} LookupDistinct(table: seq<Alias>, i: nat)
    requires i < |table| && DistinctBases(table)
    ensures Lookup(table, table[i].base) == Some(table[i].target)
    decreases i
  {
    if i > 0 {
      assert DistinctBases(table[1..]) by {
        forall a, b | 0 <= a < b < |table[1..]|
          ensures table[1..][a].base != table[1..][b].base
        {
          assert table[1..][a] == table[a + 1] && table[1..][b] == table[b + 1];
        }
      }
      assert table[1..][i - 1] == table[i];
      LookupDistinct(table[1..], i - 1);
    }
  }

  /** Two tables that agree on every entry with key `b`, in order, agree on `b`. */
  lemma {:induction false} LookupAgree(table: seq<Alias>, other: seq<Alias>, b: string)
    requires |table| <= |other|
    requires forall k :: 0 <= k < |table| ==> (table[k].base == b || other[k].base == b) ==> table[k] == other[k]
    requires forall k :: |table| <= k < |other| ==> other[k].base != b
    ensures Lookup(table, b) == Lookup(other, b)
    decreases |table| + |other|
  {
    if |table| == 0 {
      if |other| > 0 {
        assert forall k :: 1 <= k < |other| ==> other[1..][k - 1] == other[k];
        LookupAgree(table, other[1..], b);
      }
    } else if table[0].base != b {
      assert forall k :: 1 <= k < |table| ==> table[1..][k - 1] == table[k];
      assert forall k :: 1 <= k < |other| ==> other[1..][k - 1] == other[k];
      LookupAgree(table[1..], other[1..], b);
    }
  }

  /** `Object.fromEntries` over the entries with their keys passed through
      `withLeadingSlash`: every key starts with "/", the keys are exactly
      the normalised keys of the entries, and each carries the target of
      the last entry that normalises to it. */
  function NormalizeAliases(entries: seq<Alias>): (r: seq<Alias>)
    ensures Normalizes(entries, r)
    decreases |entries|
  {
    if |entries| == 0 then []
    else
      var table := NormalizeAliases(entries[..|entries| - 1]);
      var last := entries[|entries| - 1];
      NormalizeStep(entries, table);
      Put(table, WithLeadingSlash(last.base), last.target)
  }

  /** When no two entries normalise to the same key, the object holds every
      entry, normalised, in configuration order. */
  lemma {:induction false} NormalizeDistinct(entries: seq<Alias>)
    requires forall i, j :: 0 <= i < j < |entries| ==>
      WithLeadingSlash(entries[i].base) != WithLeadingSlash(entries[j].base)
    ensures |NormalizeAliases(entries)| == |entries|
    ensures forall i :: 0 <= i < |entries| ==>
      NormalizeAliases(entries)[i] == Alias(WithLeadingSlash(entries[i].base), entries[i].target)
    decreases |entries|
  {
    if |entries| > 0 {
      var init := entries[..|entries| - 1];
      var last := entries[|entries| - 1];
      assert forall i :: 0 <= i < |init| ==> init[i] == entries[i];
      NormalizeDistinct(init);
      var table := NormalizeAliases(init);
      var key := WithLeadingSlash(last.base);
      assert NormalizeAliases(entries) == Put(table, key, last.target);
      forall i | 0 <= i < |table|
        ensures table[i].base != key
      {
        assert table[i].base == WithLeadingSlash(entries[i].base);
      }
      var r := Put(table, key, last.target);
      assert r == table + [Alias(key, last.target)];
      forall i | 0 <= i < |entries|
        ensures r[i] == Alias(WithLeadingSlash(entries[i].base), entries[i].target)
      {
        if i < |table| {
          assert r[i] == table[i];
        }
      }
    }
  }

  /** Keys that already start with "/" pass through `createIPX` in order. */
  lemma ExampleAliasTable()
    ensures NormalizeAliases([Alias("/a", "/b"), Alias("/b", "/c")]) == [Alias("/a", "/b"), Alias("/b", "/c")]
  {
    var entries := [Alias("/a", "/b"), Alias("/b", "/c")];
    assert WithLeadingSlash("/a") == "/a" && WithLeadingSlash("/b") == "/b" by {
      assert StartsWith("/a", "/") && StartsWith("/b", "/");
    }
    NormalizeDistinct(entries);
  }

  /** `r` is the object built from `entries`: distinct keys, all starting
      with "/", exactly the normalised keys of the entries, each with the
      target of the last entry normalising to it. */
  ghost predicate Normalizes(entries: seq<Alias>, r: seq<Alias>) {
    && DistinctBases(r)
    && (forall i :: 0 <= i < |r| ==> StartsWith(r[i].base, "/"))
    && (forall b :: Lookup(r, b).Some? <==>
          exists j :: 0 <= j < |entries| && WithLeadingSlash(entries[j].base) == b)
    && (forall b :: Lookup(r, b).Some? ==> LastTarget(entries, b, Lookup(r, b).value))
    && (forall i, j :: 0 <= i < j < |r| ==> FirstIndex(entries, r[i].base) < FirstIndex(entries, r[j].base))
  }

  /** Index of the first entry whose normalised key is `b`, or `|entries|`:
      the position at which `Object.fromEntries` creates the key `b`. */
  function FirstIndex(entries: seq<Alias>, b: string): (i: nat)
    ensures i <= |entries|
    ensures i < |entries| ==> WithLeadingSlash(entries[i].base) == b
    ensures forall k :: 0 <= k < i ==> WithLeadingSlash(entries[k].base) != b
  {
    if |entries| == 0 then 0
    else if WithLeadingSlash(entries[0].base) == b then 0
    else
      var i := 1 + FirstIndex(entries[1..], b);
      assert forall k :: 1 <= k < i ==> entries[k] == entries[1..][k - 1];
      i
  }

  /** Appending an entry does not move the creation point of a key that
      already occurs; a key that did not occur is created by the new entry. */
  lemma {:induction false} FirstIndexAppend(init: seq<Alias>, last: Alias, b: string)
    ensures FirstIndex(init, b) < |init| ==> FirstIndex(init + [last], b) == FirstIndex(init, b)
    ensures FirstIndex(init, b) == |init| && WithLeadingSlash(last.base) == b ==>
      FirstIndex(init + [last], b) == |init|
  {
    var entries := init + [last];
    assert forall k :: 0 <= k < |init| ==> entries[k] == init[k];
    assert entries[|init|] == last;
  }

  lemma {:induction false} NormalizeStep(entries: seq<Alias>, table: seq<Alias>)
    requires |entries| > 0
    requires Normalizes(entries[..|entries| - 1], table)
    ensures Normalizes(entries, Put(table, WithLeadingSlash(entries[|entries| - 1].base), entries[|entries| - 1].target))
  {
    var init := entries[..|entries| - 1];
    var last := entries[|entries| - 1];
    assert entries == init + [last];
    PutKeepsSlash(table, WithLeadingSlash(last.base), last.target);
    PutKeepsOrder(init, last, table);
    PutKeepsKeys(init, last, table);
    PutKeepsLastTargets(init, last, table);
  }

  /** The keys after one more entry are the normalised keys of all entries. */
  lemma {:induction false} PutKeepsKeys(init: seq<Alias>, last: Alias, table: seq<Alias>)
    requires Normalizes(init, table)
    ensures var r := Put(table, WithLeadingSlash(last.base), last.target);
      forall b :: Lookup(r, b).Some? <==>
        exists j :: 0 <= j < |init + [last]| && WithLeadingSlash((init + [last])[j].base) == b
  {
    var entries := init + [last];
    var key := WithLeadingSlash(last.base);
    var r := Put(table, key, last.target);
    assert forall j :: 0 <= j < |init| ==> init[j] == entries[j];
    assert entries[|init|] == last;
    forall b
      ensures Lookup(r, b).Some? <==> exists j :: 0 <= j < |entries| && WithLeadingSlash(entries[j].base) == b
    {
      if b != key && Lookup(r, b).Some? {
        var j :| 0 <= j < |init| && WithLeadingSlash(init[j].base) == b;
        assert WithLeadingSlash(entries[j].base) == b;
      }
    }
  }

  /** After one more entry, every key carries the target of the last entry creating it. */
  lemma {:induction false} PutKeepsLastTargets(init: seq<Alias>, last: Alias, table: seq<Alias>)
    requires Normalizes(init, table)
    ensures var r := Put(table, WithLeadingSlash(last.base), last.target);
      forall b :: Lookup(r, b).Some? ==> LastTarget(init + [last], b, Lookup(r, b).value)
  {
    var entries := init + [last];
    var key := WithLeadingSlash(last.base);
    var r := Put(table, key, last.target);
    assert forall j :: 0 <= j < |init| ==> init[j] == entries[j];
    assert entries[|init|] == last;
    forall b | Lookup(r, b).Some?
      ensures LastTarget(entries, b, Lookup(r, b).value)
    {
      if b == key {
        assert LastTargetAt(entries, b, last.target, |entries| - 1);
      } else {
        var j :| LastTargetAt(init, b, Lookup(table, b).value, j);
        assert LastTargetAt(entries, b, Lookup(r, b).value, j);
      }
    }
  }

  /** Assigning the key of one more entry keeps the keys in creation order. */
  lemma {:induction false} PutKeepsOrder(init: seq<Alias>, last: Alias, table: seq<Alias>)
    requires Normalizes(init, table)
    ensures var r := Put(table, WithLeadingSlash(last.base), last.target);
      forall i, j :: 0 <= i < j < |r| ==> FirstIndex(init + [last], r[i].base) < FirstIndex(init + [last], r[j].base)
  {
    var key := WithLeadingSlash(last.base);
    TableKeysOccur(init, table, key);
    if forall i :: 0 <= i < |table| ==> table[i].base != key {
      FirstIndexAppend(init, last, key);
    }
    KeysStayOrdered(init, last, table, Put(table, key, last.target));
  }

  /** Every key of a normalised table is created by some entry, and a key
      the table lacks is created by none. */
  lemma {:induction false} TableKeysOccur(entries: seq<Alias>, table: seq<Alias>, key: string)
    requires Normalizes(entries, table)
    ensures forall i :: 0 <= i < |table| ==> FirstIndex(entries, table[i].base) < |entries|
    ensures (forall i :: 0 <= i < |table| ==> table[i].base != key) ==> FirstIndex(entries, key) == |entries|
  {
    forall i | 0 <= i < |table|
      ensures FirstIndex(entries, table[i].base) < |entries|
    {
      var b := table[i].base;
      assert Lookup(table, b).Some?;
      var j :| 0 <= j < |entries| && WithLeadingSlash(entries[j].base) == b;
    }
    if forall i :: 0 <= i < |table| ==> table[i].base != key {
      assert Lookup(table, key).None?;
    }
  }

  /** A table whose keys are those of `table`, possibly followed by one
      key created by the appended entry, keeps the keys in creation order. */
  lemma {:induction false} KeysStayOrdered(init: seq<Alias>, last: Alias, table: seq<Alias>, r: seq<Alias>)
    requires forall i :: 0 <= i < |table| ==> FirstIndex(init, table[i].base) < |init|
    requires forall i, j :: 0 <= i < j < |table| ==> FirstIndex(init, table[i].base) < FirstIndex(init, table[j].base)
    requires |table| <= |r| <= |table| + 1
    requires forall i :: 0 <= i < |table| ==> r[i].base == table[i].base
    requires |r| == |table| + 1 ==> FirstIndex(init + [last], r[|table|].base) == |init|
    ensures forall i, j :: 0 <= i < j < |r| ==> FirstIndex(init + [last], r[i].base) < FirstIndex(init + [last], r[j].base)
  {
    forall i, j | 0 <= i < j < |r|
      ensures FirstIndex(init + [last], r[i].base) < FirstIndex(init + [last], r[j].base)
    {
      FirstIndexAppend(init, last, table[i].base);
      if j < |table| {
        FirstIndexAppend(init, last, table[j].base);
      }
    }
  }

  lemma PutKeepsSlash(table: seq<Alias>, base: string, target: string)
    requires DistinctBases(table)
    requires forall i :: 0 <= i < |table| ==> StartsWith(table[i].base, "/")
    requires StartsWith(base, "/")
    ensures forall i :: 0 <= i < |Put(table, base, target)| ==> StartsWith(Put(table, base, target)[i].base, "/")
  {
  }

  /** `target` belongs to the last entry, at index `j`, that normalises to `b`. */
  predicate LastTargetAt(entries: seq<Alias>, b: string, target: string, j: int) {
    && 0 <= j < |entries|
    && WithLeadingSlash(entries[j].base) == b
    && entries[j].target == target
    && forall k :: j < k < |entries| ==> WithLeadingSlash(entries[k].base) != b
  }

  ghost predicate LastTarget(entries: seq<Alias>, b: string, target: string) {
    exists j :: LastTargetAt(entries, b, target, j)
  }

  /** One alias applied to the id: a matching key's prefix is replaced by
      joining the target with the rest of the id. */
  function Rewrite(alias: Alias, id: string, join: (string, string) -> string): string
  {
    if StartsWith(id, alias.base) then join(alias.target, id[|alias.base|..]) else id
  }

  /** The reference reading: the composition of every alias's rewrite, in
      configuration order. An id no key prefixes is unchanged. */
  function ApplyAliases(aliases: seq<Alias>, id: string, join: (string, string) -> string): (r: string)
    ensures (forall i :: 0 <= i < |aliases| ==> !StartsWith(id, aliases[i].base)) ==> r == id
    decreases |aliases|
  {
    if |aliases| == 0 then id
    else
      var before := ApplyAliases(aliases[..|aliases| - 1], id, join);
      Rewrite(aliases[|aliases| - 1], before, join)
  }

  /** The loop of `ipx`: walks the aliases in order without stopping at
      the first match. */
  method ResolveAliases(aliases: seq<Alias>, id: string, join: (string, string) -> string)
    returns (r: string)
    ensures r == ApplyAliases(aliases, id, join)
    ensures (forall i :: 0 <= i < |aliases| ==> !StartsWith(id, aliases[i].base)) ==> r == id
  {
    r := id;
    var i := 0;
    while i < |aliases|
      invariant 0 <= i <= |aliases|
      invariant r == ApplyAliases(aliases[..i], id, join)
    {
      if StartsWith(r, aliases[i].base) {
        r := join(aliases[i].target, r[|aliases[i].base|..]);
      }
      assert aliases[..i + 1][..i] == aliases[..i];
      i := i + 1;
    }
    assert aliases[..i] == aliases;
  }

  /** With `{"/a": "/b"}`, the id `/a/x.png` becomes `/b/x.png`. */
  lemma ExampleSingleAlias(join: (string, string) -> string)
    requires join("/b", "/x.png") == "/b/x.png"
    ensures ApplyAliases([Alias("/a", "/b")], "/a/x.png", join) == "/b/x.png"
  {
    assert StartsWith("/a/x.png", "/a");
    assert "/a/x.png"[2..] == "/x.png";
  }

  /** The walk does not stop at the first match: with `/a -> /b` followed
      by `/b -> /c`, the id `/a/x` ends as `/c/x`. */
  lemma ExampleChainedAliases(join: (string, string) -> string)
    requires join("/b", "/x") == "/b/x" && join("/c", "/x") == "/c/x"
    ensures ApplyAliases([Alias("/a", "/b"), Alias("/b", "/c")], "/a/x", join) == "/c/x"
  {
    var aliases := [Alias("/a", "/b"), Alias("/b", "/c")];
    assert aliases[..1] == [Alias("/a", "/b")];
    assert StartsWith("/a/x", "/a") && "/a/x"[2..] == "/x";
    assert StartsWith("/b/x", "/b") && "/b/x"[2..] == "/x";
  }
}

=== FILE: base.dfy ===
/** Shared vocabulary of the image proxy model: optional values, results,
    the error kinds the proxy raises and the metadata a storage backend
    reports. */
module Base {

  /** An optional value; `None` stands for JavaScript's `undefined`. */
  datatype Option<+T> = None | Some(value: T)

  /** The failures the proxy surfaces. The first six carry their own
      status in the source (`IPX_MISSING_ID`, `IPX_NO_STORAGE`, ...); the
      others are exceptions thrown by platform code the source calls. */
  datatype Error =
    | MissingId             // empty resource id, status 400
    | NoStorageConfigured   // neither backend configured, status 500
    | ResourceNotFound      // backend returned nothing, status 404
    | InvalidImage          // image metadata could not be parsed, status 400
    | MissingHostname       // remote id without hostname, status 403
    | ForbiddenHost         // hostname outside the domain policy, status 403
    | MalformedUri          // decodeURIComponent threw
    | InvalidUrl            // the URL constructor threw
    | InvalidPattern        // the RegExp constructor threw on a wildcard entry
    | FetchFailed           // the remote GET rejected

  datatype Result<+T> = Ok(value: T) | Err(error: Error)

  type Bytes = seq<bv8>

  /** What a storage backend's `getMeta` resolves to: both fields may be
      absent (the HTTP backend answers `{}` when its probe fails). The
      modification time is kept as the raw header text; date parsing is
      not modelled. */
  datatype StorageMeta = StorageMeta(mtime: Option<string>, maxAge: Option<int>)
}

=== FILE: cache.dfy ===
/** The persistent cache step of `ipx` (`cacacheGet` in src/ipx.ts) as a
    transition over an in-memory map from fingerprint to entry. The two
    clock readings of the source (one to judge freshness, one to stamp
    the new entry) are parameters, and so is the outcome of `process`. */
module PersistentCache {
  import opened Base
  import Ipx

  /** `7*60*60*24`, the default time-to-live, compared with clock readings
      as a plain number. */
  const DefaultStorageMaxAge: int := 604800

  /** What `process` resolves to and the cache hands back. */
  datatype Processed = Processed(data: Bytes, format: string, meta: Ipx.ImageMeta)

  /** A stored entry: the bytes plus the metadata written with them. */
  datatype Entry = Entry(data: Bytes, time: int, format: string, meta: Ipx.ImageMeta)

  type Cache = map<string, Entry>

  /** `options.storageMaxAge || 7*60*60*24`. */
  function Ttl(storageMaxAge: Option<int>): (ttl: int)
    ensures storageMaxAge.Some? && storageMaxAge.value != 0 ==> ttl == storageMaxAge.value
    ensures !(storageMaxAge.Some? && storageMaxAge.value != 0) ==> ttl == DefaultStorageMaxAge
  {
    if storageMaxAge.Some? && storageMaxAge.value != 0 then storageMaxAge.value else DefaultStorageMaxAge
  }

  /** An entry under `key` still serves a read at `now`. */
  predicate Fresh(cache: Cache, key: string, ttl: int, now: int) {
    key in cache && cache[key].time + ttl >= now
  }

  /** The result of one cache step: what the caller receives, the cache
      afterwards, and whether `process` ran. */
  datatype Outcome = Outcome(result: Result<Processed>, cache: Cache, computed: bool)

  /** One cache step for fingerprint `key`. A fresh entry is returned
      without running `process`. Otherwise the entry is removed, `process`
      runs, and on success its result is stored stamped `writeTime`; on
      failure the error propagates and the key stays removed. No other
      key changes. */
  function Get(cache: Cache, key: string, storageMaxAge: Option<int>, now: int, writeTime: int,
               process: Result<Processed>): (o: Outcome)
    ensures Fresh(cache, key, Ttl(storageMaxAge), now) ==>
      && !o.computed && o.cache == cache
      && o.result == Ok(Processed(cache[key].data, cache[key].format, cache[key].meta))
    ensures !Fresh(cache, key, Ttl(storageMaxAge), now) ==> o.computed && o.result == process
    ensures !Fresh(cache, key, Ttl(storageMaxAge), now) && process.Err? ==> key !in o.cache
    ensures !Fresh(cache, key, Ttl(storageMaxAge), now) && process.Ok? ==>
      && key in o.cache
      && o.cache[key] == Entry(process.value.data, writeTime, process.value.format, process.value.meta)
    ensures forall k :: k != key ==> (k in o.cache <==> k in cache)
    ensures forall k :: k != key && k in cache ==> o.cache[k] == cache[k]
  {
    if Fresh(cache, key, Ttl(storageMaxAge), now) then
      var e := cache[key];
      Outcome(Ok(Processed(e.data, e.format, e.meta)), cache, false)
    else
      var removed := cache - {key};
      match process
      case Err(err) => Outcome(Err(err), removed, true)
      case Ok(p) => Outcome(Ok(p), removed[key := Entry(p.data, writeTime, p.format, p.meta)], true)
  }

  /** The freshness window: an entry stamped `time` serves a read at `now`
      iff `now - time <= ttl`; an entry exactly `ttl` old is still served. */
  lemma FreshnessWindow(cache: Cache, key: string, storageMaxAge: Option<int>, now: int,
                        writeTime: int, process: Result<Processed>)
    requires key in cache
    ensures var o := Get(cache, key, storageMaxAge, now, writeTime, process);
      !o.computed <==> now - cache[key].time <= Ttl(storageMaxAge)
  {
  }

  /** Once a result is stored, a later read inside the window is served
      from the cache, with the same bytes, format and metadata, and
      `process` does not run again. */
  lemma StoredResultServed(cache: Cache, key: string, storageMaxAge: Option<int>,
                           now1: int, writeTime: int, process1: Result<Processed>,
                           now2: int, writeTime2: int, process2: Result<Processed>)
    requires !Fresh(cache, key, Ttl(storageMaxAge), now1) && process1.Ok?
    requires now2 <= writeTime + Ttl(storageMaxAge)
    ensures var first := Get(cache, key, storageMaxAge, now1, writeTime, process1);
      var second := Get(first.cache, key, storageMaxAge, now2, writeTime2, process2);
      && !second.computed && second.result == first.result && second.cache == first.cache
  {
  }

  /** A failed `process` leaves no entry behind, so the next read
      computes again. */
  lemma FailureNotCached(cache: Cache, key: string, storageMaxAge: Option<int>,
                         now1: int, writeTime: int, process1: Result<Processed>,
                         now2: int, writeTime2: int, process2: Result<Processed>)
    requires !Fresh(cache, key, Ttl(storageMaxAge), now1) && process1.Err?
    ensures var first := Get(cache, key, storageMaxAge, now1, writeTime, process1);
      var second := Get(first.cache, key, storageMaxAge, now2, writeTime2, process2);
      first.result == process1 && second.computed && second.result == process2
  {
  }
}

=== FILE: handlers.dfy ===
/** Resolution of modifiers to transformation handlers (src/ipx.ts): each
    modifier whose name has a handler becomes a step, the others are
    dropped, and the steps are sorted by the handler's `order` when it is
    truthy, else by the modifier name. The handler table itself lives in
    code this model does not include and is a parameter. */
module Handlers {
  import opened Base
  import opened Strings

  /** One entry of the modifiers object, in enumeration order. */
  datatype Modifier = Modifier(name: string, arg: string)

  /** What the model needs of a handler: its optional ordering number. */
  datatype Handler = Handler(order: Option<int>)

  /** A modifier together with the handler its name resolves to. */
  datatype Step = Step(name: string, arg: string, handler: Handler)

  /** `(handler.order || name || "").toString()`: a zero order is falsy
      and falls back to the name; an order is compared by its decimal text. */
  function SortKey(step: Step): (key: string)
    ensures step.handler.order.None? || step.handler.order == Some(0) ==> key == step.name
    ensures step.handler.order.Some? && step.handler.order.value > 0 ==>
      && |key| >= 1 && AllDigits(key) && key[0] != '0'
      && DecimalValue(key) == step.handler.order.value
    ensures step.handler.order.Some? && step.handler.order.value < 0 ==>
      && |key| >= 2 && key[0] == '-' && key[1] != '0'
      && AllDigits(key[1..]) && DecimalValue(key[1..]) == -step.handler.order.value
  {
    match step.handler.order
    case Some(n) =>
      if n > 0 then
        DecimalRoundTrip(n);
        IntToString(n)
      else if n < 0 then
        DecimalRoundTrip(-n);
        assert IntToString(n)[1..] == NatToString(-n);
        IntToString(n)
      else step.name
    case None => step.name
  }

  predicate Sorted(steps: seq<Step>) {
    forall i, j :: 0 <= i < j < |steps| ==> LexLe(SortKey(steps[i]), SortKey(steps[j]))
  }

  /** The modifiers whose name has a handler, in enumeration order. */
  function Resolvable(mods: seq<Modifier>, table: map<string, Handler>): (steps: seq<Step>)
    ensures forall s :: s in steps <==>
      s.name in table && s.handler == table[s.name] && Modifier(s.name, s.arg) in mods
    ensures |steps| <= |mods|
  {
    if |mods| == 0 then []
    else
      var rest := Resolvable(mods[1..], table);
      assert forall m :: m in mods <==> m == mods[0] || m in mods[1..];
      if mods[0].name in table then [Step(mods[0].name, mods[0].arg, table[mods[0].name])] + rest
      else rest
  }

  /** Inserts `x` before the first step it does not sort after. */
  function Insert(x: Step, steps: seq<Step>): (r: seq<Step>)
    requires Sorted(steps)
    ensures Sorted(r)
    ensures multiset(r) == multiset(steps) + multiset{x}
  {
    if |steps| == 0 then [x]
    else if LexLe(SortKey(x), SortKey(steps[0])) then
      forall j | 0 <= j < |steps|
        ensures LexLe(SortKey(x), SortKey(steps[j]))
      {
        if j > 0 {
          LexLeTransitive(SortKey(x), SortKey(steps[0]), SortKey(steps[j]));
        }
      }
      [x] + steps
    else
      LexLeTotal(SortKey(x), SortKey(steps[0]));
      var tail := Insert(x, steps[1..]);
      var r := [steps[0]] + tail;
      assert steps == [steps[0]] + steps[1..];
      forall j | 0 <= j < |tail|
        ensures LexLe(SortKey(steps[0]), SortKey(tail[j]))
      {
        assert tail[j] in multiset(tail);
        if tail[j] != x {
          assert tail[j] in multiset(steps[1..]);
          var k :| 0 <= k < |steps[1..]| && steps[1..][k] == tail[j];
          assert steps[k + 1] == tail[j];
        }
      }
      r
  }

  /** Insertion sort by key. */
  function SortSteps(steps: seq<Step>): (r: seq<Step>)
    ensures Sorted(r)
    ensures multiset(r) == multiset(steps)
  {
    if |steps| == 0 then []
    else
      assert steps == [steps[0]] + steps[1..];
      Insert(steps[0], SortSteps(steps[1..]))
  }

  /** Keys are compared as text, so a handler with `order` 10 runs before
      one with `order` 9. */
  lemma ExampleTextualOrder(a: Step, b: Step)
    requires a.handler.order == Some(10) && b.handler.order == Some(9)
    ensures LexLe(SortKey(a), SortKey(b)) && !LexLe(SortKey(b), SortKey(a))
  {
    assert NatToString(10) == NatToString(1) + [DigitChar(0)];
    assert SortKey(a) == "10" && SortKey(b) == "9";
  }

  /** The resolved handler list of `ipx`: exactly the modifiers with a
      handler, each once per occurrence, sorted by key. */
  function ResolveHandlers(mods: seq<Modifier>, table: map<string, Handler>): (r: seq<Step>)
    ensures Sorted(r)
    ensures multiset(r) == multiset(Resolvable(mods, table))
    ensures forall s :: s in r <==>
      s.name in table && s.handler == table[s.name] && Modifier(s.name, s.arg) in mods
  {
    var r := SortSteps(Resolvable(mods, table));
    assert forall s :: s in r <==> s in multiset(r);
    r
  }

  /** The sort keys of the steps are pairwise distinct. */
  predicate DistinctKeys(steps: seq<Step>) {
    forall i, j :: 0 <= i < j < |steps| ==> SortKey(steps[i]) != SortKey(steps[j])
  }

  /** The first step of a sorted list sorts no later than any of its steps. */
  lemma SortedHeadLeast(a: seq<Step>, x: Step)
    requires Sorted(a) && x in a
    ensures LexLe(SortKey(a[0]), SortKey(x))
  {
    var i :| 0 <= i < |a| && a[i] == x;
    if i == 0 {
      LexLeReflexive(SortKey(x));
    }
  }

  lemma SortedTail(a: seq<Step>)
    requires |a| > 0 && Sorted(a)
    ensures Sorted(a[1..])
    ensures DistinctKeys(a) ==> DistinctKeys(a[1..])
  {
    assert forall i :: 0 <= i < |a[1..]| ==> a[1..][i] == a[i + 1];
  }

  /** Two sorted arrangements of the same steps with distinct keys coincide. */
  lemma {:induction false} SortedUnique(a: seq<Step>, b: seq<Step>)
    requires Sorted(a) && Sorted(b) && DistinctKeys(a)
    requires multiset(a) == multiset(b)
    ensures a == b
    decreases |a|
  {
    assert |a| == |multiset(a)| == |multiset(b)| == |b|;
    if |a| > 0 {
      assert a[0] in multiset(b) && b[0] in multiset(a);
      SortedHeadLeast(b, a[0]);
      SortedHeadLeast(a, b[0]);
      LexLeAntisymmetric(SortKey(a[0]), SortKey(b[0]));
      var j :| 0 <= j < |a| && a[j] == b[0];
      assert j == 0;
      MultisetTails(a, b);
      SortedTail(a);
      SortedTail(b);
      SortedUnique(a[1..], b[1..]);
    }
  }

  lemma MultisetTails<T>(a: seq<T>, b: seq<T>)
    requires |a| > 0 && |b| > 0 && a[0] == b[0] && multiset(a) == multiset(b)
    ensures multiset(a[1..]) == multiset(b[1..])
  {
    assert a == [a[0]] + a[1..] && b == [b[0]] + b[1..];
    assert multiset(a[1..]) == multiset(a) - multiset{a[0]};
    assert multiset(b[1..]) == multiset(b) - multiset{b[0]};
  }

  /** Each resolvable step occurs as often as its modifier does. */
  lemma {:induction false} ResolvableCount(mods: seq<Modifier>, table: map<string, Handler>, s: Step)
    ensures multiset(Resolvable(mods, table))[s] ==
      if s.name in table && s.handler == table[s.name] then multiset(mods)[Modifier(s.name, s.arg)] else 0
    decreases |mods|
  {
    if |mods| > 0 {
      ResolvableCount(mods[1..], table, s);
      assert mods == [mods[0]] + mods[1..];
      assert multiset(mods) == multiset{mods[0]} + multiset(mods[1..]);
    }
  }

  /** Rearranging the modifiers rearranges the resolvable steps. */
  lemma ResolvablePermutation(a: seq<Modifier>, b: seq<Modifier>, table: map<string, Handler>)
    requires multiset(a) == multiset(b)
    ensures multiset(Resolvable(a, table)) == multiset(Resolvable(b, table))
  {
    forall s: Step
      ensures multiset(Resolvable(a, table))[s] == multiset(Resolvable(b, table))[s]
    {
      ResolvableCount(a, table, s);
      ResolvableCount(b, table, s);
    }
  }

  /** The step order does not depend on the order the modifiers were
      given in, provided the resolved steps have distinct keys (two
      handlers sharing an `order` would tie, and ties keep input order). */
  lemma OrderIndependent(a: seq<Modifier>, b: seq<Modifier>, table: map<string, Handler>)
    requires multiset(a) == multiset(b)
    requires DistinctKeys(ResolveHandlers(a, table))
    ensures ResolveHandlers(a, table) == ResolveHandlers(b, table)
  {
    ResolvablePermutation(a, b, table);
    SortedUnique(ResolveHandlers(a, table), ResolveHandlers(b, table));
  }
}

=== FILE: http_storage.dfy ===
/** The HTTP storage backend's policy (src/storage/http.ts): the domain
    list, exact and wildcard hosts, id validation, `max-age` selection and
    the validate-then-fetch order of `getMeta` and `getData`. URL parsing,
    `decodeURIComponent` and the requests themselves are parameters. */
module HttpStorage {
  import opened Base
  import opened Strings
  import Wildcard

  /** The `domains` option: one comma-joined text or an explicit list. */
  datatype DomainsSetting = DomainsText(text: string) | DomainsList(entries: seq<string>)

  /** The backend's options once the environment fallbacks are settled. */
  datatype HttpOptions = HttpOptions(
    domains: Option<DomainsSetting>,
    allowAllDomains: bool,
    maxAge: Option<int>,
    ignoreCacheControl: bool)

  /** What the platform `URL` constructor yields: the serialised URL and its hostname. */
  datatype Url = Url(href: string, hostname: string)

  /** Platform services: `decodeURIComponent` and `new URL`, each `None` where it throws. */
  datatype UrlServices = UrlServices(
    decode: string -> Option<string>,
    parse: string -> Option<Url>)

  /** The precomputed domain policy. */
  datatype Policy = Policy(wildcards: seq<string>, exact: set<string>, allowAll: bool)

  /** The two response headers the backend reads. */
  datatype Response = Response(cacheControl: Option<string>, lastModified: Option<string>)

  /** JavaScript truthiness of an optional text. */
  predicate Present(t: Option<string>) {
    t.Some? && t.value != ""
  }

  /** The entries of the domain list: a text is split on "," and each
      piece trimmed; an empty text counts as no setting. */
  function DomainEntries(setting: Option<DomainsSetting>): (entries: seq<string>)
    ensures setting.None? ==> entries == []
    ensures setting == Some(DomainsText("")) ==> entries == []
    ensures setting.Some? && setting.value.DomainsList? ==> entries == setting.value.entries
    ensures setting.Some? && setting.value.DomainsText? && setting.value.text != "" ==>
      var pieces := Split(setting.value.text, ',');
      && Join(pieces, ',') == setting.value.text
      && |entries| == |pieces| == Count(setting.value.text, ',') + 1
      && forall i :: 0 <= i < |entries| ==> entries[i] == Trim(pieces[i]) && ',' !in entries[i]
  {
    match setting
    case None => []
    case Some(DomainsList(entries)) => entries
    case Some(DomainsText(text)) =>
      if text == "" then []
      else
        var pieces := Split(text, ',');
        SplitLength(text, ',');
        TrimmedPiecesHaveNoComma(pieces);
        seq(|pieces|, i requires 0 <= i < |pieces| => Trim(pieces[i]))
  }

  lemma TrimmedPiecesHaveNoComma(pieces: seq<string>)
    requires forall i :: 0 <= i < |pieces| ==> ',' !in pieces[i]
    ensures forall i :: 0 <= i < |pieces| ==> ',' !in Trim(pieces[i])
  {
    forall i | 0 <= i < |pieces|
      ensures ',' !in Trim(pieces[i])
    {
      var t := Trim(pieces[i]);
      var j :| PaddedAt(pieces[i], t, j);
      assert forall k :: 0 <= k < |t| ==> t[k] == pieces[i][j + k];
    }
  }

  predicate HasHttpScheme(d: string) {
    StartsWith(d, "http://") || StartsWith(d, "https://")
  }

  /** An exact entry without an `http(s)://` scheme gets `http://` in front. */
  function WithHttpScheme(d: string): (r: string)
    ensures HasHttpScheme(r)
    ensures HasHttpScheme(d) ==> r == d
    ensures !HasHttpScheme(d) ==> r == "http://" + d
  {
    if HasHttpScheme(d) then d else "http://" + d
  }

  /** The hostname the URL constructor gives an entry, `None` where it throws. */
  function EntryHost(d: string, parse: string -> Option<Url>): Option<string>
  {
    match parse(WithHttpScheme(d))
    case None => None
    case Some(u) => Some(u.hostname)
  }

  /** The exact-domain set: the non-empty hostnames of all entries. Building
      it fails as soon as one entry is not a URL. */
  function ExactHosts(entries: seq<string>, parse: string -> Option<Url>): (r: Result<set<string>>)
    ensures r.Err? <==> exists i :: 0 <= i < |entries| && EntryHost(entries[i], parse).None?
    ensures r.Err? ==> r.error == InvalidUrl
    ensures r.Ok? ==> forall h :: h in r.value <==>
      h != "" && exists i :: 0 <= i < |entries| && EntryHost(entries[i], parse) == Some(h)
  {
    if |entries| == 0 then Ok({})
    else
      match EntryHost(entries[0], parse)
      case None => Err(InvalidUrl)
      case Some(host) =>
        var rest := ExactHosts(entries[1..], parse);
        assert forall i :: 1 <= i < |entries| ==> entries[i] == entries[1..][i - 1];
        if rest.Err? then
          var i :| 0 <= i < |entries[1..]| && EntryHost(entries[1..][i], parse).None?;
          assert EntryHost(entries[i + 1], parse).None?;
          rest
        else
          Ok(rest.value + (if host == "" then {} else {host}))
  }

  /** The wildcard entries: those starting with `*`, in order. */
  function WildcardEntries(entries: seq<string>): (r: seq<string>)
    ensures forall p :: p in r <==> p in entries && StartsWith(p, "*")
  {
    if |entries| == 0 then []
    else
      var rest := WildcardEntries(entries[1..]);
      assert forall p :: p in entries <==> p == entries[0] || p in entries[1..];
      if StartsWith(entries[0], "*") then [entries[0]] + rest else rest
  }

  /** Building the backend: the policy, the URL constructor's error for an
      entry that is not a URL, or the RegExp constructor's error for a
      `*`-entry whose pattern does not compile. The hostnames are computed
      first, so a URL failure is reported before a pattern failure.
      `compiles` tells which wildcard entries make a valid regular expression. */
  function BuildPolicy(opts: HttpOptions, parse: string -> Option<Url>, compiles: string -> bool): (r: Result<Policy>)
    ensures r == Err(InvalidUrl) <==>
      exists d :: d in DomainEntries(opts.domains) && EntryHost(d, parse).None?
    ensures r == Err(InvalidPattern) <==>
      && (forall d :: d in DomainEntries(opts.domains) ==> EntryHost(d, parse).Some?)
      && (exists p :: p in DomainEntries(opts.domains) && StartsWith(p, "*") && !compiles(p))
    ensures r.Err? ==> r.error == InvalidUrl || r.error == InvalidPattern
    ensures r.Ok? ==>
      && r.value.allowAll == opts.allowAllDomains
      && (forall p :: p in r.value.wildcards <==> p in DomainEntries(opts.domains) && StartsWith(p, "*"))
      && (forall p :: p in r.value.wildcards ==> compiles(p))
      && (forall h :: h in r.value.exact <==>
            h != "" && exists d :: d in DomainEntries(opts.domains) && EntryHost(d, parse) == Some(h))
  {
    var entries := DomainEntries(opts.domains);
    match ExactHosts(entries, parse)
    case Err(e) => Err(e)
    case Ok(exact) =>
      assert forall d :: d in entries <==> exists i :: 0 <= i < |entries| && entries[i] == d;
      var wildcards := WildcardEntries(entries);
      if forall p :: p in wildcards ==> compiles(p) then
        Ok(Policy(wildcards, exact, opts.allowAllDomains))
      else
        Err(InvalidPattern)
  }

  /** Whether some wildcard entry matches the hostname (`hosts.some(...)`). */
  predicate SomeWildcardMatches(wildcards: seq<string>, host: string) {
    exists i :: 0 <= i < |wildcards| && Wildcard.Matches(wildcards[i], host)
  }

  /** The acceptance test of `validateId`. */
  predicate HostAllowed(policy: Policy, host: string) {
    SomeWildcardMatches(policy.wildcards, host) || policy.allowAll || host in policy.exact
  }

  /** `validateId`: decode, parse, require a hostname, then apply the
      domain policy; the result is the serialised URL to fetch. */
  function ValidateId(policy: Policy, services: UrlServices, id: string): (r: Result<string>)
    ensures services.decode(id).None? ==> r == Err(MalformedUri)
    ensures services.decode(id).Some? && services.parse(services.decode(id).value).None? ==>
      r == Err(InvalidUrl)
    ensures r.Ok? <==>
      exists u :: Parsed(services, id, u) && u.hostname != "" && HostAllowed(policy, u.hostname)
    ensures r.Ok? ==> exists u :: Parsed(services, id, u) && r.value == u.href
    ensures r == Err(MissingHostname) <==> exists u :: Parsed(services, id, u) && u.hostname == ""
    ensures r == Err(ForbiddenHost) <==>
      exists u :: Parsed(services, id, u) && u.hostname != "" && !HostAllowed(policy, u.hostname)
  {
    match services.decode(id)
    case None => Err(MalformedUri)
    case Some(decoded) =>
      match services.parse(decoded)
      case None => Err(InvalidUrl)
      case Some(u) =>
        assert Parsed(services, id, u);
        if u.hostname == "" then Err(MissingHostname)
        else if HostAllowed(policy, u.hostname) then Ok(u.href)
        else Err(ForbiddenHost)
  }

  /** `id` decodes and parses to `u`. */
  predicate Parsed(services: UrlServices, id: string, u: Url) {
    match services.decode(id)
    case None => false
    case Some(decoded) => services.parse(decoded) == Some(u)
  }

  /** Validation against the reference reading of wildcards: an id is
      accepted iff its hostname is non-empty and is some wildcard entry
      with its `*`s filled in, or all domains are allowed, or it is an
      exact host. A missing hostname is reported before the policy. */
  lemma ValidateIdIffPolicy(policy: Policy, services: UrlServices, id: string, u: Url)
    requires Parsed(services, id, u)
    ensures ValidateId(policy, services, id).Ok? <==>
      u.hostname != "" &&
      ((exists i :: 0 <= i < |policy.wildcards| && Wildcard.Denotes(policy.wildcards[i], u.hostname))
       || policy.allowAll || u.hostname in policy.exact)
    ensures u.hostname == "" ==> ValidateId(policy, services, id) == Err(MissingHostname)
  {
    forall i | 0 <= i < |policy.wildcards|
      ensures Wildcard.Matches(policy.wildcards[i], u.hostname) <==> Wildcard.Denotes(policy.wildcards[i], u.hostname)
    {
      Wildcard.MatchesIffDenotes(policy.wildcards[i], u.hostname);
    }
  }

  /** The configured default age: `maxAge` when truthy, else absent. */
  function DefaultMaxAge(opts: HttpOptions): (r: Option<int>)
    ensures r.Some? <==> opts.maxAge.Some? && opts.maxAge.value != 0
    ensures r.Some? ==> r == opts.maxAge
  {
    if opts.maxAge.Some? && opts.maxAge.value != 0 then opts.maxAge else None
  }

  /** `max-age=` followed by a digit starts at index `i` of `h`. */
  predicate MaxAgeAt(h: string, i: nat) {
    i + 9 <= |h| && h[i..i + 8] == "max-age=" && IsDigit(h[i + 8])
  }

  /** Length of the run of decimal digits that starts `s`. */
  function DigitRun(s: string): (n: nat)
    ensures n <= |s| && AllDigits(s[..n])
    ensures n < |s| ==> !IsDigit(s[n])
  {
    if |s| > 0 && IsDigit(s[0]) then
      var n := 1 + DigitRun(s[1..]);
      assert forall k :: 1 <= k < n ==> s[..n][k] == s[1..][..n - 1][k - 1];
      n
    else 0
  }

  /** The leftmost match of `/max-age=(\d+)/` at or after `from`. */
  function FirstMaxAge(h: string, from: nat): (r: Option<nat>)
    requires from <= |h|
    ensures r.Some? ==> from <= r.value && MaxAgeAt(h, r.value)
    ensures r.Some? ==> forall j :: from <= j < r.value ==> !MaxAgeAt(h, j)
    ensures r.None? ==> forall j :: from <= j <= |h| ==> !MaxAgeAt(h, j)
    decreases |h| - from
  {
    if MaxAgeAt(h, from) then Some(from)
    else if from == |h| then None
    else FirstMaxAge(h, from + 1)
  }

  /** `h[i + 8..i + 8 + n]` is the whole run of digits after a `max-age=`
      at index `i`: what the greedy group `(\d+)` captures there. */
  predicate CapturedAt(h: string, i: nat, n: nat) {
    && 1 <= n && i + 8 + n <= |h|
    && h[i..i + 8] == "max-age="
    && AllDigits(h[i + 8..i + 8 + n])
    && (i + 8 + n == |h| || !IsDigit(h[i + 8 + n]))
  }

  /** The number a `cache-control` text gives through `/max-age=(\d+)/`,
      read as `Number.parseInt` reads the captured digits: the value of the
      digit run after the leftmost `max-age=` that is followed by a digit. */
  function CacheControlMaxAge(h: string): (r: Option<nat>)
    ensures r.Some? <==> exists i :: 0 <= i <= |h| && MaxAgeAt(h, i)
    ensures r.Some? ==> exists i: nat, n: nat ::
      && CapturedAt(h, i, n)
      && (forall j :: 0 <= j < i ==> !MaxAgeAt(h, j))
      && r.value == DecimalValue(h[i + 8..i + 8 + n])
  {
    match FirstMaxAge(h, 0)
    case None => None
    case Some(i) =>
      var digits := h[i + 8..];
      var n := DigitRun(digits);
      assert digits[..n] == h[i + 8..i + 8 + n];
      assert n >= 1 by {
        assert IsDigit(digits[0]);
      }
      assert CapturedAt(h, i, n);
      Some(DecimalValue(digits[..n]))
  }

  /** `parseResponse`. The header is consulted only when
      `ignoreCacheControl` is set; that polarity is kept as written. */
  function ParseResponse(opts: HttpOptions, response: Response): (m: StorageMeta)
    ensures m.mtime == (if Present(response.lastModified) then response.lastModified else None)
    ensures !opts.ignoreCacheControl ==> m.maxAge == DefaultMaxAge(opts)
    ensures opts.ignoreCacheControl && Present(response.cacheControl)
            && CacheControlMaxAge(response.cacheControl.value).Some? ==>
      m.maxAge == Some(CacheControlMaxAge(response.cacheControl.value).value)
    ensures opts.ignoreCacheControl && !(Present(response.cacheControl)
            && CacheControlMaxAge(response.cacheControl.value).Some?) ==>
      m.maxAge == DefaultMaxAge(opts)
  {
    var maxAge :=
      if opts.ignoreCacheControl && Present(response.cacheControl) then
        match CacheControlMaxAge(response.cacheControl.value)
        case Some(n) => Some(n)
        case None => DefaultMaxAge(opts)
      else DefaultMaxAge(opts);
    var mtime := if Present(response.lastModified) then response.lastModified else None;
    StorageMeta(mtime, maxAge)
  }

  /** `getMeta`: validation errors propagate; once validated, a failed
      HEAD probe gives empty metadata rather than an error. */
  function GetMeta(policy: Policy, services: UrlServices, opts: HttpOptions, id: string,
                   head: string -> Option<Response>): (r: Result<StorageMeta>)
    ensures ValidateId(policy, services, id).Err? ==> r == Err(ValidateId(policy, services, id).error)
    ensures ValidateId(policy, services, id).Ok? ==> r.Ok?
    ensures ValidateId(policy, services, id).Ok? && head(ValidateId(policy, services, id).value).None? ==>
      r == Ok(StorageMeta(None, None))
    ensures ValidateId(policy, services, id).Ok? && head(ValidateId(policy, services, id).value).Some? ==>
      r == Ok(ParseResponse(opts, head(ValidateId(policy, services, id).value).value))
  {
    match ValidateId(policy, services, id)
    case Err(e) => Err(e)
    case Ok(url) =>
      match head(url)
      case None => Ok(StorageMeta(None, None))
      case Some(response) => Ok(ParseResponse(opts, response))
  }

  /** `getData`: validation errors propagate; a failed GET rejects. */
  function GetData(policy: Policy, services: UrlServices, id: string,
                   get: string -> Option<Bytes>): (r: Result<Bytes>)
    ensures ValidateId(policy, services, id).Err? ==> r == Err(ValidateId(policy, services, id).error)
    ensures r.Ok? ==> (ValidateId(policy, services, id).Ok?
      && get(ValidateId(policy, services, id).value) == Some(r.value))
    ensures ValidateId(policy, services, id).Ok? && get(ValidateId(policy, services, id).value).Some? ==>
      r == Ok(get(ValidateId(policy, services, id).value).value)
    ensures ValidateId(policy, services, id).Ok? && get(ValidateId(policy, services, id).value).None? ==>
      r == Err(FetchFailed)
  {
    match ValidateId(policy, services, id)
    case Err(e) => Err(e)
    case Ok(url) =>
      match get(url)
      case None => Err(FetchFailed)
      case Some(data) => Ok(data)
  }

  /** Neither request is made for an id that fails validation: the
      outcome does not depend on what the fetchers would answer. */
  lemma ValidateBeforeFetch(policy: Policy, services: UrlServices, opts: HttpOptions, id: string,
                            head1: string -> Option<Response>, head2: string -> Option<Response>,
                            get1: string -> Option<Bytes>, get2: string -> Option<Bytes>)
    requires ValidateId(policy, services, id).Err?
    ensures GetMeta(policy, services, opts, id, head1) == GetMeta(policy, services, opts, id, head2)
    ensures GetData(policy, services, id, get1) == GetData(policy, services, id, get2)
    ensures GetMeta(policy, services, opts, id, head1).Err?
  {
  }

  /** With `domains: ["*.example.com"]`, `img.example.com` is accepted. */
  lemma ExampleWildcardAccepts(services: UrlServices, id: string, u: Url)
    requires Parsed(services, id, u) && u.hostname == "img.example.com"
    ensures ValidateId(Policy(["*.example.com"], {}, false), services, id) == Ok(u.href)
  {
    ExampleSuffixMatch();
    assert SomeWildcardMatches(["*.example.com"], u.hostname) by {
      assert Wildcard.Matches(["*.example.com"][0], u.hostname);
    }
  }

  lemma ExampleSuffixMatch()
    ensures Wildcard.Matches("*.example.com", "img.example.com")
  {
    var suffix, host := ".example.com", "img.example.com";
    assert "*.example.com" == "*" + suffix;
    assert host[|host| - |suffix|..] == suffix;
    assert Wildcard.NoLineTerminator(host[..|host| - |suffix|]) by {
      assert host[..|host| - |suffix|] == "img";
    }
    Wildcard.SuffixMatches(suffix, host);
  }

  /** With the same policy, `evil.com` is refused as a forbidden host. */
  lemma ExampleWildcardRefuses(services: UrlServices, id: string, u: Url)
    requires Parsed(services, id, u) && u.hostname == "evil.com"
    ensures ValidateId(Policy(["*.example.com"], {}, false), services, id) == Err(ForbiddenHost)
  {
    var suffix := ".example.com";
    assert "*.example.com" == "*" + suffix;
    Wildcard.SuffixMatches(suffix, "evil.com");
    assert !SomeWildcardMatches(["*.example.com"], "evil.com");
  }
}

=== FILE: ipx.dfy ===
/** The orchestrator of src/ipx.ts with its I/O and library calls taken
    out: option defaults and alias normalisation of `createIPX`; id check,
    slash normalisation, alias rewriting and storage selection of `ipx`;
    the resolution of source metadata and data; and the decisions of
    `process` (format negotiation, the SVG bypass, the handler list and
    the encode options). Pixel work, SVG optimisation and image-metadata
    parsing belong to external libraries and appear as a plan and as
    parameters. */
module Ipx {
  import opened Base
  import opened Strings
  import opened Aliases
  import opened Handlers
  import HttpStorage

  /** Output formats the raster engine is asked for (`SUPPORTED_FORMATS`). */
  const SupportedFormats: set<string> := {"jpeg", "png", "webp", "avif", "tiff", "heif", "gif", "heic"}

  /** Quality used when no handler sets one. */
  const DefaultQuality: int := 65

  /** `maxAge` when the user gives none. */
  const DefaultCacheMaxAge: int := 60

  /** The `svgo` option: `false`, or optimiser settings with their plugin
      list (an absent option or plugin list is `SvgoEnabled([])`). */
  datatype Svgo = SvgoDisabled | SvgoEnabled(plugins: seq<string>)

  /** The options handed to `createIPX`; whether each backend is set is
      all the orchestrator decides on. */
  datatype UserOptions = UserOptions(
    maxAge: Option<int>,
    alias: seq<Alias>,
    hasStorage: bool,
    hasHttpStorage: bool,
    storageMaxAge: Option<int>,
    svgo: Svgo)

  /** The options once `createIPX` has settled them. */
  datatype Options = Options(
    maxAge: int,
    alias: seq<Alias>,
    hasStorage: bool,
    hasHttpStorage: bool,
    storageMaxAge: Option<int>,
    svgo: Svgo)

  /** `createIPX`: `maxAge` defaults to 60 and alias keys are normalised. */
  function CreateOptions(user: UserOptions): (o: Options)
    ensures o.maxAge == (if user.maxAge.Some? then user.maxAge.value else DefaultCacheMaxAge)
    ensures forall i :: 0 <= i < |o.alias| ==> StartsWith(o.alias[i].base, "/")
    ensures Normalizes(user.alias, o.alias)
    ensures o.hasStorage == user.hasStorage && o.hasHttpStorage == user.hasHttpStorage
    ensures o.storageMaxAge == user.storageMaxAge && o.svgo == user.svgo
  {
    Options(
      if user.maxAge.Some? then user.maxAge.value else DefaultCacheMaxAge,
      NormalizeAliases(user.alias),
      user.hasStorage, user.hasHttpStorage, user.storageMaxAge, user.svgo)
  }

  /** Which configured backend serves a request. */
  datatype Slot = PrimaryStorage | HttpStorageSlot

  predicate Configured(opts: Options, slot: Slot) {
    match slot
    case PrimaryStorage => opts.hasStorage
    case HttpStorageSlot => opts.hasHttpStorage
  }

  /** Storage selection: a remote id prefers the HTTP backend and a local
      id the primary one, each falling back to the other. */
  function SelectStorage(opts: Options, remote: bool): (r: Result<Slot>)
    ensures r.Err? <==> !opts.hasStorage && !opts.hasHttpStorage
    ensures r.Err? ==> r.error == NoStorageConfigured
    ensures r.Ok? ==> Configured(opts, r.value)
    ensures remote && opts.hasHttpStorage ==> r == Ok(HttpStorageSlot)
    ensures !remote && opts.hasStorage ==> r == Ok(PrimaryStorage)
  {
    if remote then
      if opts.hasHttpStorage then Ok(HttpStorageSlot)
      else if opts.hasStorage then Ok(PrimaryStorage)
      else Err(NoStorageConfigured)
    else
      if opts.hasStorage then Ok(PrimaryStorage)
      else if opts.hasHttpStorage then Ok(HttpStorageSlot)
      else Err(NoStorageConfigured)
  }

  /** With a single backend configured, every id goes to it. */
  lemma SingleBackendServesAll(opts: Options, remote: bool)
    requires opts.hasStorage != opts.hasHttpStorage
    ensures SelectStorage(opts, remote) ==
      Ok(if opts.hasStorage then PrimaryStorage else HttpStorageSlot)
  {
  }

  /** Ids without a protocol get a leading slash; others are kept. */
  function NormalizeId(id: string): (r: string)
    ensures HasProtocol(id) ==> r == id
    ensures !HasProtocol(id) ==> StartsWith(r, "/") && !HasProtocol(r)
    ensures r == id || r == "/" + id
    ensures !HasProtocol(id) ==> (r == id <==> StartsWith(id, "/"))
  {
    if HasProtocol(id) then id
    else
      var r := WithLeadingSlash(id);
      LeadingSlashHasNoProtocol(r);
      r
  }

  /** A request once its id is resolved and its backend chosen. */
  datatype Request = Request(id: string, slot: Slot)

  /** The synchronous part of `ipx`: reject an empty id, normalise it,
      rewrite it through the aliases, then choose the backend by whether
      the rewritten id carries a protocol. */
  function Resolve(opts: Options, id: string, join: (string, string) -> string): (r: Result<Request>)
    ensures id == "" ==> r == Err(MissingId)
    ensures id != "" ==> (r.Err? <==> !opts.hasStorage && !opts.hasHttpStorage)
    ensures id != "" && r.Err? ==> r.error == NoStorageConfigured
    ensures r.Ok? ==> r.value.id == ApplyAliases(opts.alias, NormalizeId(id), join)
    ensures r.Ok? ==> Configured(opts, r.value.slot)
    ensures r.Ok? && HasProtocol(r.value.id) && opts.hasHttpStorage ==> r.value.slot == HttpStorageSlot
    ensures r.Ok? && !HasProtocol(r.value.id) && opts.hasStorage ==> r.value.slot == PrimaryStorage
  {
    if id == "" then Err(MissingId)
    else
      var resolved := ApplyAliases(opts.alias, NormalizeId(id), join);
      match SelectStorage(opts, HasProtocol(resolved))
      case Err(e) => Err(e)
      case Ok(slot) => Ok(Request(resolved, slot))
  }

  /** An id no alias key prefixes (after normalisation) reaches storage
      selection unchanged apart from its leading slash. */
  lemma UnaliasedIdKept(opts: Options, id: string, join: (string, string) -> string)
    requires id != "" && (opts.hasStorage || opts.hasHttpStorage)
    requires forall i :: 0 <= i < |opts.alias| ==> !StartsWith(NormalizeId(id), opts.alias[i].base)
    ensures Resolve(opts, id, join).Ok?
    ensures Resolve(opts, id, join).value.id == NormalizeId(id)
  {
  }

  /** From configuration to request: with aliases `/a -> /b` then
      `/b -> /c`, the id `/a/x` is served as `/c/x`. The keys keep their
      configured order through `createIPX`, so the second alias sees the
      output of the first. */
  lemma ConfiguredAliasOrder(user: UserOptions, join: (string, string) -> string)
    requires user.alias == [Alias("/a", "/b"), Alias("/b", "/c")] && user.hasStorage
    requires join("/b", "/x") == "/b/x" && join("/c", "/x") == "/c/x"
    ensures Resolve(CreateOptions(user), "/a/x", join) == Ok(Request("/c/x", PrimaryStorage))
  {
    var opts := CreateOptions(user);
    assert opts.alias == user.alias by {
      ExampleAliasTable();
    }
    assert NormalizeId("/a/x") == "/a/x" by {
      LeadingSlashHasNoProtocol("/a/x");
    }
    assert ApplyAliases(opts.alias, "/a/x", join) == "/c/x" by {
      ExampleChainedAliases(join);
    }
    assert !HasProtocol("/c/x") by {
      LeadingSlashHasNoProtocol("/c/x");
    }
  }

  /** The metadata `getSourceMeta` resolves to. */
  datatype SourceMeta = SourceMeta(maxAge: int, mtime: Option<string>)

  /** `getSourceMeta` from what the backend's `getMeta` produced: a
      rejection propagates, no answer is `ResourceNotFound`, and an
      absent `maxAge` falls back to the configured one. */
  function GetSourceMeta(opts: Options, fetched: Result<Option<StorageMeta>>): (r: Result<SourceMeta>)
    ensures fetched.Err? ==> r == Err(fetched.error)
    ensures fetched == Ok(None) ==> r == Err(ResourceNotFound)
    ensures fetched.Ok? && fetched.value.Some? ==> (r.Ok?
      && r.value.maxAge == (if fetched.value.value.maxAge.Some? then fetched.value.value.maxAge.value else opts.maxAge)
      && r.value.mtime == (if HttpStorage.Present(fetched.value.value.mtime) then fetched.value.value.mtime else None))
  {
    match fetched
    case Err(e) => Err(e)
    case Ok(None) => Err(ResourceNotFound)
    case Ok(Some(m)) =>
      var maxAge := if m.maxAge.Some? then m.maxAge.value else opts.maxAge;
      var mtime := if HttpStorage.Present(m.mtime) then m.mtime else None;
      Ok(SourceMeta(maxAge, mtime))
  }

  /** `getSourceData`: a rejection propagates, no data is `ResourceNotFound`. */
  function GetSourceData(fetched: Result<Option<Bytes>>): (r: Result<Bytes>)
    ensures r.Ok? <==> fetched.Ok? && fetched.value.Some?
    ensures r.Ok? ==> r.value == fetched.value.value
    ensures fetched.Err? ==> r == Err(fetched.error)
    ensures fetched == Ok(None) ==> r == Err(ResourceNotFound)
  {
    match fetched
    case Err(e) => Err(e)
    case Ok(None) => Err(ResourceNotFound)
    case Ok(Some(data)) => Ok(data)
  }

  /** A backend's answer as the orchestrator sees it: a value resolved,
      or a rejection. */
  function Answered<T>(r: Result<T>): Result<Option<T>>
  {
    match r
    case Ok(v) => Ok(Some(v))
    case Err(e) => Err(e)
  }

  /** Served by the HTTP backend, a failed probe still yields source
      metadata, with the configured `maxAge`; a validation failure is
      surfaced instead. */
  lemma HttpProbeFailureUsesDefault(
    opts: Options, policy: HttpStorage.Policy, services: HttpStorage.UrlServices,
    httpOpts: HttpStorage.HttpOptions, id: string, head: string -> Option<HttpStorage.Response>)
    ensures var fetched := HttpStorage.GetMeta(policy, services, httpOpts, id, head);
      var validated := HttpStorage.ValidateId(policy, services, id);
      && (validated.Ok? && head(validated.value).None? ==>
            GetSourceMeta(opts, Answered(fetched)) == Ok(SourceMeta(opts.maxAge, None)))
      && (validated.Err? ==> GetSourceMeta(opts, Answered(fetched)) == Err(validated.error))
  {
  }

  /** A modifier's value, `None` when the key is absent. */
  function Get(mods: seq<Modifier>, name: string): (r: Option<string>)
    ensures r.Some? <==> exists i :: 0 <= i < |mods| && mods[i].name == name
    ensures r.Some? ==> Modifier(name, r.value) in mods
  {
    if |mods| == 0 then None
    else if mods[0].name == name then Some(mods[0].arg)
    else
      var r := Get(mods[1..], name);
      assert forall i :: 1 <= i < |mods| ==> mods[i] == mods[1..][i - 1];
      r
  }

  /** A modifier's value with absence read as the empty text, so that
      JavaScript's `||` fallback is a test for "". */
  function OrEmpty(v: Option<string>): string
  {
    if v.Some? then v.value else ""
  }

  /** `modifiers.f || modifiers.format`, with "jpg" read as "jpeg"; the
      empty text means that no format was requested. */
  function RequestedFormat(mods: seq<Modifier>): (r: string)
    ensures OrEmpty(Get(mods, "f")) != "" ==>
      r == (if Get(mods, "f").value == "jpg" then "jpeg" else Get(mods, "f").value)
    ensures OrEmpty(Get(mods, "f")) == "" ==>
      r == (if OrEmpty(Get(mods, "format")) == "jpg" then "jpeg" else OrEmpty(Get(mods, "format")))
    ensures r != "jpg"
  {
    var f := OrEmpty(Get(mods, "f"));
    var m := if f != "" then f else OrEmpty(Get(mods, "format"));
    if m == "jpg" then "jpeg" else m
  }

  /** The first supported candidate, or "jpeg": the reference reading of
      the negotiation. */
  function FirstSupported(candidates: seq<string>): (r: string)
    ensures r in SupportedFormats
    ensures r in candidates || r == "jpeg"
    ensures forall i ::
      (0 <= i < |candidates| && candidates[i] in SupportedFormats &&
       forall k :: 0 <= k < i ==> candidates[k] !in SupportedFormats) ==> r == candidates[i]
    ensures (forall i :: 0 <= i < |candidates| ==> candidates[i] !in SupportedFormats) ==> r == "jpeg"
  {
    if |candidates| == 0 then "jpeg"
    else if candidates[0] in SupportedFormats then candidates[0]
    else FirstSupported(candidates[1..])
  }

  /** Output-format negotiation: a supported requested format wins, then
      a supported source type, then "jpeg". */
  function OutputFormat(requested: string, sourceType: Option<string>): (r: string)
    ensures r in SupportedFormats
    ensures r == FirstSupported([requested, OrEmpty(sourceType)])
  {
    if requested != "" && requested in SupportedFormats then requested
    else if OrEmpty(sourceType) in SupportedFormats then OrEmpty(sourceType)
    else "jpeg"
  }

  /** What the image engine reports about the source. */
  datatype ImageMeta = ImageMeta(imageType: Option<string>, width: Option<int>, height: Option<int>)

  /** The encode step: format, quality and progressive flag. */
  datatype EncodeOptions = EncodeOptions(format: string, quality: int, progressive: bool)

  /** `handlerContext.quality || 65`. */
  function Quality(contextQuality: Option<int>): (q: int)
    ensures contextQuality.Some? && contextQuality.value != 0 ==> q == contextQuality.value
    ensures !(contextQuality.Some? && contextQuality.value != 0) ==> q == DefaultQuality
    ensures q != 0
  {
    if contextQuality.Some? && contextQuality.value != 0 then contextQuality.value else DefaultQuality
  }

  /** The `animated` flag `process` computes for the raster pipeline. */
  predicate Animated(mods: seq<Modifier>, format: string) {
    Get(mods, "animated").Some? || Get(mods, "a").Some? || format == "gif"
  }

  /** The encode options for a negotiated format. */
  function Encode(format: string, contextQuality: Option<int>): (e: EncodeOptions)
    ensures e.format == format
    ensures e.progressive <==> format == "jpeg"
    ensures e.quality == Quality(contextQuality)
  {
    EncodeOptions(format, Quality(contextQuality), format == "jpeg")
  }

  /** The work `process` asks of the external libraries. */
  datatype Plan =
    | KeepSvg(data: Bytes)                    // the source markup, unchanged
    | OptimizeSvg(data: Bytes, plugins: seq<string>)  // svgo with this plugin list
    | Raster(animated: bool, steps: seq<Step>, encode: EncodeOptions)

  /** The outcome of `process`: the plan, the reported format and the source metadata. */
  datatype Processing = Processing(plan: Plan, format: string, meta: ImageMeta)

  /** The plugin list handed to the SVG optimiser. */
  function SvgPlugins(configured: seq<string>): (r: seq<string>)
    ensures |r| == |configured| + 1
    ensures r[0] == "removeScriptElement" && r[1..] == configured
  {
    ["removeScriptElement"] + configured
  }

  /** `process` with the external pieces as parameters: `parseMeta`
      stands for image-meta, `table` for the handler table and
      `contextQuality` for the quality the handlers leave in the shared
      context. */
  function Process(opts: Options, mods: seq<Modifier>, source: Result<Bytes>,
                   parseMeta: Bytes -> Option<ImageMeta>, table: map<string, Handler>,
                   contextQuality: Option<int>): (r: Result<Processing>)
    ensures source.Err? ==> r == Err(source.error)
    ensures source.Ok? && parseMeta(source.value).None? ==> r == Err(InvalidImage)
    ensures source.Ok? && parseMeta(source.value).Some? ==> r.Ok? && r.value.meta == parseMeta(source.value).value
    ensures r.Ok? ==> source.Ok? && parseMeta(source.value) == Some(r.value.meta)
    ensures r.Ok? && !r.value.plan.Raster? ==>
      && r.value.format == "svg+xml"
      && r.value.meta.imageType == Some("svg") && RequestedFormat(mods) == ""
    ensures r.Ok? && r.value.plan.KeepSvg? ==> opts.svgo.SvgoDisabled? && r.value.plan.data == source.value
    ensures r.Ok? && r.value.plan.OptimizeSvg? ==>
      && opts.svgo.SvgoEnabled? && r.value.plan.data == source.value
      && r.value.plan.plugins == SvgPlugins(opts.svgo.plugins)
    ensures r.Ok? && r.value.plan.Raster? ==>
      && !(r.value.meta.imageType == Some("svg") && RequestedFormat(mods) == "")
      && r.value.format in SupportedFormats
      && r.value.format == OutputFormat(RequestedFormat(mods), r.value.meta.imageType)
      && r.value.plan.encode == Encode(r.value.format, contextQuality)
      && (r.value.plan.animated <==> Animated(mods, r.value.format))
      && r.value.plan.steps == ResolveHandlers(mods, table)
  {
    match source
    case Err(e) => Err(e)
    case Ok(data) =>
      match parseMeta(data)
      case None => Err(InvalidImage)
      case Some(meta) =>
        var requested := RequestedFormat(mods);
        var format := OutputFormat(requested, meta.imageType);
        if meta.imageType == Some("svg") && requested == "" then
          match opts.svgo
          case SvgoDisabled => Ok(Processing(KeepSvg(data), "svg+xml", meta))
          case SvgoEnabled(plugins) => Ok(Processing(OptimizeSvg(data, SvgPlugins(plugins)), "svg+xml", meta))
        else
          var plan := Raster(Animated(mods, format), ResolveHandlers(mods, table), Encode(format, contextQuality));
          Ok(Processing(plan, format, meta))
  }

  /** An SVG source without `f`/`format` bypasses the raster engine; with
      the optimiser enabled the plugin list starts with
      `removeScriptElement`. */
  lemma SvgBypass(opts: Options, mods: seq<Modifier>, data: Bytes,
                  parseMeta: Bytes -> Option<ImageMeta>, table: map<string, Handler>, q: Option<int>)
    requires parseMeta(data).Some? && parseMeta(data).value.imageType == Some("svg")
    requires Get(mods, "f").None? && Get(mods, "format").None?
    ensures var r := Process(opts, mods, Ok(data), parseMeta, table, q);
      && r.Ok? && !r.value.plan.Raster? && r.value.format == "svg+xml"
      && (opts.svgo.SvgoEnabled? ==> r.value.plan.OptimizeSvg? && r.value.plan.plugins[0] == "removeScriptElement")
      && (opts.svgo.SvgoDisabled? ==> r.value.plan == KeepSvg(data))
  {
  }

  /** A JPEG source with no format modifier is encoded as "jpeg": directly
      when reported as "jpeg", and through the fallback when reported as
      "jpg", which is not a supported output format. */
  lemma JpegSourceStaysJpeg(opts: Options, mods: seq<Modifier>, data: Bytes,
                            parseMeta: Bytes -> Option<ImageMeta>, table: map<string, Handler>, q: Option<int>)
    requires parseMeta(data).Some?
    requires parseMeta(data).value.imageType == Some("jpeg") || parseMeta(data).value.imageType == Some("jpg")
    requires Get(mods, "f").None? && Get(mods, "format").None?
    ensures var r := Process(opts, mods, Ok(data), parseMeta, table, q);
      r.Ok? && r.value.format == "jpeg" && r.value.plan.Raster? && r.value.plan.encode.progressive
  {
  }

  /** `format=webp` gives "webp" whatever the source type, SVG included. */
  lemma ExplicitFormatWins(opts: Options, mods: seq<Modifier>, data: Bytes,
                           parseMeta: Bytes -> Option<ImageMeta>, table: map<string, Handler>, q: Option<int>)
    requires parseMeta(data).Some?
    requires Get(mods, "f").None? && Get(mods, "format") == Some("webp")
    ensures var r := Process(opts, mods, Ok(data), parseMeta, table, q);
      r.Ok? && r.value.format == "webp" && r.value.plan.Raster? && !r.value.plan.encode.progressive
  {
  }

  /** `f` is read before `format`, and "jpg" becomes "jpeg". */
  lemma ShortFormatFirst(mods: seq<Modifier>)
    requires Get(mods, "f") == Some("jpg")
    ensures RequestedFormat(mods) == "jpeg"
    ensures OutputFormat(RequestedFormat(mods), None) == "jpeg"
  {
  }
}

=== FILE: strings.dfy ===
/** String helpers the proxy relies on: prefix tests, ufo's
    `withLeadingSlash` and protocol detection, `String.prototype.split`
    on one character, `String.prototype.trim`, code-point ordering and
    decimal text of integers. */
module Strings {

  predicate StartsWith(s: string, prefix: string) {
    |prefix| <= |s| && s[..|prefix|] == prefix
  }

  /** ufo's `withLeadingSlash`: prepends "/" unless the text starts with one. */
  function WithLeadingSlash(s: string): (r: string)
    ensures StartsWith(r, "/")
    ensures r == s || r == "/" + s
    ensures r == s <==> StartsWith(s, "/")
  {
    if StartsWith(s, "/") then s else "/" + s
  }

  predicate IsLowerAscii(c: char) {
    'a' <= c <= 'z'
  }

  /** Length of the run of lower-case ASCII letters that starts `s`. */
  function LeadingLower(s: string): (n: nat)
    ensures n <= |s|
    ensures forall k :: 0 <= k < n ==> IsLowerAscii(s[k])
    ensures n < |s| ==> !IsLowerAscii(s[n])
  {
    if |s| > 0 && IsLowerAscii(s[0]) then 1 + LeadingLower(s[1..]) else 0
  }

  /** Protocol detection, taken as the pattern `^[a-z]+://`. */
  predicate HasProtocol(s: string) {
    var n := LeadingLower(s);
    n > 0 && StartsWith(s[n..], "://")
  }

  /** The pattern reading of `HasProtocol`: some non-empty run of
      lower-case letters at the start is followed by "://". */
  lemma HasProtocolIff(s: string)
    ensures HasProtocol(s) <==>
      exists n :: 0 < n <= |s| && (forall k :: 0 <= k < n ==> IsLowerAscii(s[k])) && StartsWith(s[n..], "://")
  {
    var m := LeadingLower(s);
    forall n | 0 < n <= |s| && (forall k :: 0 <= k < n ==> IsLowerAscii(s[k])) && StartsWith(s[n..], "://")
      ensures n == m
    {
      assert s[n..][0] == ':' && s[n] == s[n..][0];
    }
  }

  /** A text that starts with "/" never carries a protocol. */
  lemma LeadingSlashHasNoProtocol(s: string)
    requires StartsWith(s, "/")
    ensures !HasProtocol(s)
  {
    assert s[0] == s[..1][0] == '/';
  }

  /** Index of the first occurrence of `c` in `s`, or `|s|` if there is none. */
  function IndexOf(s: string, c: char): (i: nat)
    ensures i <= |s|
    ensures i < |s| ==> s[i] == c
    ensures forall k :: 0 <= k < i ==> s[k] != c
  {
    if |s| == 0 then 0
    else if s[0] == c then 0
    else 1 + IndexOf(s[1..], c)
  }

  /** `parts.join(sep)`. */
  function Join(parts: seq<string>, sep: char): string
  {
    if |parts| == 0 then ""
    else if |parts| == 1 then parts[0]
    else parts[0] + [sep] + Join(parts[1..], sep)
  }

  /** `s.split(sep)` for a one-character separator: the pieces between
      separators, never empty as a list. */
  function Split(s: string, sep: char): (parts: seq<string>)
    ensures |parts| >= 1
    ensures forall i :: 0 <= i < |parts| ==> sep !in parts[i]
    ensures Join(parts, sep) == s
    decreases |s|
  {
    var i := IndexOf(s, sep);
    if i == |s| then
      assert forall k :: 0 <= k < |s| ==> s[k] != sep;
      [s]
    else
      var rest := Split(s[i + 1..], sep);
      var parts := [s[..i]] + rest;
      assert parts[1..] == rest;
      assert s == s[..i] + [sep] + s[i + 1..];
      parts
  }

  /** Number of occurrences of `c` in `s`. */
  function Count(s: string, c: char): nat
  {
    if |s| == 0 then 0 else (if s[0] == c then 1 else 0) + Count(s[1..], c)
  }

  lemma {:induction false} CountAppend(a: string, b: string, c: char)
    ensures Count(a + b, c) == Count(a, c) + Count(b, c)
    decreases |a|
  {
    if |a| == 0 {
      assert a + b == b;
    } else {
      assert (a + b)[1..] == a[1..] + b;
      CountAppend(a[1..], b, c);
    }
  }

  lemma {:induction false} CountAbsent(s: string, c: char)
    requires c !in s
    ensures Count(s, c) == 0
    decreases |s|
  {
    if |s| > 0 {
      CountAbsent(s[1..], c);
    }
  }

  /** Splitting yields one more piece than there are separators. */
  lemma {:induction false} SplitLength(s: string, sep: char)
    ensures |Split(s, sep)| == Count(s, sep) + 1
    decreases |s|
  {
    var i := IndexOf(s, sep);
    if i == |s| {
      assert sep !in s;
      CountAbsent(s, sep);
    } else {
      SplitLength(s[i + 1..], sep);
      assert s == s[..i] + ([sep] + s[i + 1..]);
      CountAppend(s[..i], [sep] + s[i + 1..], sep);
      CountAppend([sep], s[i + 1..], sep);
      assert sep !in s[..i];
      CountAbsent(s[..i], sep);
    }
  }

  /** Splitting a join of separator-free pieces gives the pieces back. */
  lemma {:induction false} SplitJoin(parts: seq<string>, sep: char)
    requires |parts| >= 1
    requires forall i :: 0 <= i < |parts| ==> sep !in parts[i]
    ensures Split(Join(parts, sep), sep) == parts
    decreases |parts|
  {
    var s := Join(parts, sep);
    var i := IndexOf(s, sep);
    if |parts| == 1 {
      assert forall k :: 0 <= k < |s| ==> s[k] != sep;
    } else {
      var a := parts[0];
      var b := Join(parts[1..], sep);
      assert s == a + [sep] + b;
      assert s[|a|] == sep;
      assert forall k :: 0 <= k < |a| ==> s[k] == a[k];
      assert i == |a|;
      assert s[i + 1..] == b;
      assert s[..i] == a;
      SplitJoin(parts[1..], sep);
    }
  }

  /** The characters `String.prototype.trim` strips: WhiteSpace and
      LineTerminator of section 12.2 and 12.3 of ECMA-262. */
  predicate IsJsWhitespace(c: char) {
    || c == '\U{0009}' || c == '\U{000A}' || c == '\U{000B}' || c == '\U{000C}'
    || c == '\U{000D}' || c == '\U{0020}' || c == '\U{00A0}' || c == '\U{1680}'
    || ('\U{2000}' <= c <= '\U{200A}')
    || c == '\U{2028}' || c == '\U{2029}' || c == '\U{202F}' || c == '\U{205F}'
    || c == '\U{3000}' || c == '\U{FEFF}'
  }

  function LeadingWhitespace(s: string): (n: nat)
    ensures n <= |s|
    ensures forall k :: 0 <= k < n ==> IsJsWhitespace(s[k])
    ensures n < |s| ==> !IsJsWhitespace(s[n])
  {
    if |s| > 0 && IsJsWhitespace(s[0]) then 1 + LeadingWhitespace(s[1..]) else 0
  }

  function TrailingWhitespace(s: string): (n: nat)
    ensures n <= |s|
    ensures forall k :: |s| - n <= k < |s| ==> IsJsWhitespace(s[k])
    ensures n < |s| ==> !IsJsWhitespace(s[|s| - n - 1])
  {
    if |s| > 0 && IsJsWhitespace(s[|s| - 1]) then 1 + TrailingWhitespace(s[..|s| - 1]) else 0
  }

  /** `r` is the infix of `s` starting at `i`, and everything of `s`
      outside it is whitespace. */
  predicate PaddedAt(s: string, r: string, i: int) {
    && 0 <= i <= |s| - |r|
    && r == s[i..i + |r|]
    && (forall k :: 0 <= k < i ==> IsJsWhitespace(s[k]))
    && (forall k :: i + |r| <= k < |s| ==> IsJsWhitespace(s[k]))
  }

  /** `s.trim()`: the infix of `s` that neither starts nor ends with
      whitespace, everything cut away being whitespace. */
  function Trim(s: string): (r: string)
    ensures r == [] || (!IsJsWhitespace(r[0]) && !IsJsWhitespace(r[|r| - 1]))
    ensures exists i :: PaddedAt(s, r, i)
  {
    var i := LeadingWhitespace(s);
    var rest := s[i..];
    var j := |rest| - TrailingWhitespace(rest);
    var r := rest[..j];
    assert r == s[i..i + |r|];
    assert forall k :: i + |r| <= k < |s| ==> s[k] == rest[k - i];
    assert PaddedAt(s, r, i);
    r
  }

  /** Lexicographic order by code point (a `char` is a Unicode scalar
      value): `a` sorts no later than `b`. */
  predicate LexLe(a: string, b: string) {
    |a| == 0 || (|b| > 0 && (a[0] < b[0] || (a[0] == b[0] && LexLe(a[1..], b[1..]))))
  }

  lemma {:induction false} LexLeReflexive(a: string)
    ensures LexLe(a, a)
    decreases |a|
  {
    if |a| > 0 {
      LexLeReflexive(a[1..]);
    }
  }

  lemma {:induction false} LexLeTotal(a: string, b: string)
    ensures LexLe(a, b) || LexLe(b, a)
    decreases |a|
  {
    if |a| > 0 && |b| > 0 && a[0] == b[0] {
      LexLeTotal(a[1..], b[1..]);
    }
  }

  lemma {:induction false} LexLeTransitive(a: string, b: string, c: string)
    requires LexLe(a, b) && LexLe(b, c)
    ensures LexLe(a, c)
    decreases |a|
  {
    if |a| > 0 && a[0] == b[0] && b[0] == c[0] {
      LexLeTransitive(a[1..], b[1..], c[1..]);
    }
  }

  lemma {:induction false} LexLeAntisymmetric(a: string, b: string)
    requires LexLe(a, b) && LexLe(b, a)
    ensures a == b
    decreases |a|
  {
    if |a| > 0 {
      LexLeAntisymmetric(a[1..], b[1..]);
      assert a == [a[0]] + a[1..] && b == [b[0]] + b[1..];
    }
  }

  predicate IsDigit(c: char) {
    '0' <= c <= '9'
  }

  predicate AllDigits(s: string) {
    forall k :: 0 <= k < |s| ==> IsDigit(s[k])
  }

  function DigitChar(d: nat): (c: char)
    requires d < 10
    ensures IsDigit(c)
  {
    ['0', '1', '2', '3', '4', '5', '6', '7', '8', '9'][d]
  }

  function DigitValue(c: char): (d: nat)
    requires IsDigit(c)
    ensures d < 10
  {
    (c as int - '0' as int) as nat
  }

  lemma DigitValueChar(d: nat)
    requires d < 10
    ensures DigitValue(DigitChar(d)) == d
  {
  }

  /** The value `Number.parseInt` gives a text of decimal digits. */
  function DecimalValue(s: string): nat
    requires AllDigits(s)
  {
    if |s| == 0 then 0 else DecimalValue(s[..|s| - 1]) * 10 + DigitValue(s[|s| - 1])
  }

  /** Decimal text of a natural number, as `Number.prototype.toString` writes it. */
  function NatToString(n: nat): (s: string)
    ensures |s| >= 1 && AllDigits(s)
    ensures n == 0 ==> s == "0"
    ensures n > 0 ==> s[0] != '0'
  {
    if n < 10 then [DigitChar(n)] else NatToString(n / 10) + [DigitChar(n % 10)]
  }

  function IntToString(i: int): string
  {
    if i < 0 then "-" + NatToString(-i) else NatToString(i)
  }

  /** Reading back the decimal text of `n` gives `n`. */
  lemma {:induction false} DecimalRoundTrip(n: nat)
    ensures DecimalValue(NatToString(n)) == n
    decreases n
  {
    var s := NatToString(n);
    if n < 10 {
      DigitValueChar(n);
    } else {
      DecimalRoundTrip(n / 10);
      assert s[..|s| - 1] == NatToString(n / 10);
      DigitValueChar(n % 10);
    }
  }
}

=== FILE: wildcard.dfy ===
/** Wildcard domain entries of the HTTP backend (src/storage/http.ts).
    An entry such as `*.example.com` is compiled to the regular expression
    `^.*\.example\.com$`: each `*` becomes `.*`, each `.` is escaped, and
    the whole hostname must match. In a JavaScript regular expression `.`
    matches any character except a line terminator, so `*` stands for any
    run of non-line-terminator characters. */
module Wildcard {

  /** LineTerminator of section 12.3 of ECMA-262: what `.` does not match. */
  predicate IsLineTerminator(c: char) {
    c == '\U{000A}' || c == '\U{000D}' || c == '\U{2028}' || c == '\U{2029}'
  }

  predicate NoLineTerminator(w: string) {
    forall k :: 0 <= k < |w| ==> !IsLineTerminator(w[k])
  }

  /** Whether the whole of `host` matches `pattern`, the matcher's view. */
  predicate Matches(pattern: string, host: string)
    decreases |pattern| + |host|
  {
    if |pattern| == 0 then |host| == 0
    else if pattern[0] == '*' then
      Matches(pattern[1..], host)
      || (|host| > 0 && !IsLineTerminator(host[0]) && Matches(pattern, host[1..]))
    else
      |host| > 0 && host[0] == pattern[0] && Matches(pattern[1..], host[1..])
  }

  /** Number of `*` in a pattern. */
  function Stars(pattern: string): nat
  {
    if |pattern| == 0 then 0
    else (if pattern[0] == '*' then 1 else 0) + Stars(pattern[1..])
  }

  /** The text a pattern denotes once its `*`s are replaced, in order, by `fills`. */
  function Expand(pattern: string, fills: seq<string>): string
    requires |fills| == Stars(pattern)
  {
    if |pattern| == 0 then ""
    else if pattern[0] == '*' then fills[0] + Expand(pattern[1..], fills[1..])
    else [pattern[0]] + Expand(pattern[1..], fills)
  }

  predicate ValidFills(fills: seq<string>) {
    forall i :: 0 <= i < |fills| ==> NoLineTerminator(fills[i])
  }

  /** The reference reading of an entry: the hostname is the entry with
      each `*` replaced by some line-terminator-free text. */
  ghost predicate Denotes(pattern: string, host: string) {
    exists fills :: |fills| == Stars(pattern) && ValidFills(fills) && Expand(pattern, fills) == host
  }

  /** A successful match yields the texts the `*`s stood for. */
  lemma {:induction false} MatchWitness(pattern: string, host: string) returns (fills: seq<string>)
    requires Matches(pattern, host)
    ensures |fills| == Stars(pattern) && ValidFills(fills)
    ensures Expand(pattern, fills) == host
    decreases |pattern| + |host|
  {
    if |pattern| == 0 {
      fills := [];
    } else if pattern[0] == '*' {
      if Matches(pattern[1..], host) {
        var rest := MatchWitness(pattern[1..], host);
        fills := [""] + rest;
        assert fills[1..] == rest;
      } else {
        var rest := MatchWitness(pattern, host[1..]);
        fills := [[host[0]] + rest[0]] + rest[1..];
        assert fills[1..] == rest[1..];
        assert Expand(pattern, rest) == rest[0] + Expand(pattern[1..], rest[1..]);
        assert host == [host[0]] + host[1..];
      }
    } else {
      fills := MatchWitness(pattern[1..], host[1..]);
      assert host == [host[0]] + host[1..];
    }
  }

  /** Every substitution of the `*`s is matched. */
  lemma {:induction false} ExpandMatches(pattern: string, fills: seq<string>)
    requires |fills| == Stars(pattern) && ValidFills(fills)
    ensures Matches(pattern, Expand(pattern, fills))
    decreases |pattern| + |Expand(pattern, fills)|
  {
    var host := Expand(pattern, fills);
    if |pattern| == 0 {
    } else if pattern[0] == '*' {
      if |fills[0]| == 0 {
        assert host == Expand(pattern[1..], fills[1..]);
        ExpandMatches(pattern[1..], fills[1..]);
      } else {
        var shorter := [fills[0][1..]] + fills[1..];
        assert shorter[1..] == fills[1..];
        assert NoLineTerminator(fills[0]);
        assert Expand(pattern, shorter) == host[1..];
        ExpandMatches(pattern, shorter);
      }
    } else {
      assert host[1..] == Expand(pattern[1..], fills);
      ExpandMatches(pattern[1..], fills);
    }
  }

  /** The matcher agrees with the reference reading, both ways. */
  lemma MatchesIffDenotes(pattern: string, host: string)
    ensures Matches(pattern, host) <==> Denotes(pattern, host)
  {
    if Matches(pattern, host) {
      var fills := MatchWitness(pattern, host);
    }
    if Denotes(pattern, host) {
      var fills :| |fills| == Stars(pattern) && ValidFills(fills) && Expand(pattern, fills) == host;
      ExpandMatches(pattern, fills);
    }
  }

  /** A star-free entry matches exactly the hostname equal to it. */
  lemma {:induction false} LiteralMatches(literal: string, host: string)
    requires '*' !in literal
    ensures Matches(literal, host) <==> host == literal
    decreases |literal|
  {
    if |literal| > 0 {
      if |host| > 0 {
        LiteralMatches(literal[1..], host[1..]);
        assert literal == [literal[0]] + literal[1..];
        assert host == [host[0]] + host[1..];
      }
    }
  }

  /** The usual form `*` followed by a star-free suffix, such as
      `*.example.com`: it matches exactly the hostnames that end with the
      suffix and carry no line terminator before it. */
  lemma {:induction false} SuffixMatches(suffix: string, host: string)
    requires '*' !in suffix
    ensures Matches("*" + suffix, host) <==>
      |suffix| <= |host| && host[|host| - |suffix|..] == suffix
      && NoLineTerminator(host[..|host| - |suffix|])
    decreases |host|
  {
    var pattern := "*" + suffix;
    assert pattern[1..] == suffix;
    LiteralMatches(suffix, host);
    if |host| > 0 {
      SuffixMatches(suffix, host[1..]);
      if |suffix| <= |host[1..]| {
        assert host[1..][|host[1..]| - |suffix|..] == host[|host| - |suffix|..];
        assert host[..|host| - |suffix|] == [host[0]] + host[1..][..|host[1..]| - |suffix|];
      }
      if |suffix| == |host| {
        assert host[|host| - |suffix|..] == host;
      }
    }
  }
}
